=== FILE: README.md ===
# SmarterImages, modelled in Dafny

SmarterImages is a jQuery plugin that swaps the image of managed elements (`<img>`
sources or CSS background images) as the browser window is resized. On every `load`
or `resize` event it does the following:

- It resolves the viewport width to a *zone*, one entry of the `breakpoints` option (`evalWidths`).
- For each element, a gate decides whether a swap is due (`fireLoadImageLogic`). Under the *upsize-only* policy, an element that has already been served a zone is swapped only for a zone at least as large.
- On a swap it builds a URL for the zone (`loadImage`). This uses the cloudimage.io resize or crop service, a custom template with `%%size%%` and `%%source%%` tokens (`customURLTreatment`), or a placehold.it placeholder.
- It writes the URL only when it differs from what the element already shows, and records the zone in `data-si-maxsize`.

This project models one managed element and proves properties of that model.

## Modules

- `JsStrings`: the JavaScript behaviour the plugin relies on:
  - the text of an integral number and of `undefined` in a `+` concatenation;
  - `parseInt`, which takes the longest run of digits after an optional sign, with NaN as `None`;
  - `String.prototype.split` with a non-empty separator;
  - the join the plugin's loops perform by hand.

  The module proves that `parseInt` reads back the text of a number, and that joining the pieces of a split gives back the string.
- `Zones`: the default breakpoints and the zone resolution (`ResolveZone`), with the imperative `EvalWidths` and its loop proved equal to it.
  - The zone is `Option<int>`, because `evalWidths` returns `undefined` for a width it does not place.
  - For a strictly increasing list, a positive width below the second breakpoint gets the first one, and a width at or above the second gets the greatest breakpoint not exceeding it. The zone is undefined exactly for non-positive widths below the second breakpoint.
  - With overlapping intervals, the last match wins.
- `SwapGate`: the gate, the `data-si-maxsize` record, and the proof that, under upsize-only and starting from an absent or numeric record, the record is always the largest zone seen.
- `UrlTemplate`: the custom template as a function (`CustomUrl`) and the imperative `CustomUrlTreatment`, proved equal to it.
  - Every `%%size%%` is replaced.
  - Only the first `%%source%%` is replaced; everything from the second one on is dropped.
  - A missing source or a missing `%%source%%` reads `undefined`.
- `UrlBuilder`: the options record, the processor precedence (cloudimage.io, then the custom URL, then placeholders, else the empty string), and the URL formats.
- `Element`: the element's state and what `loadImage` and one event do to it, the `ManagedElement` class, and lemmas over series of events:
  - the record never decreases;
  - the aspect ratio is cached once;
  - a repeated pass changes nothing;
  - the upsize scenario over `[360, 480, 768]`.

The class's `LoadImage` and `Pass` methods update the element's fields in place. They are proved equal to `LoadImageSpec` and `PassSpec`.

## Behaviour of the code worth knowing

- **Crop height.** The code reads the cached ratio with `parseInt` (`jquery.smarterimages.js:135`), so only its integer part is used. A cached ratio of `1.5` is read as 1, so zone 480 gives the crop `480x480`.
  - A ratio from 1e-6 up to 1 (a portrait element) is read as 0, so the height is `Infinity`, `-Infinity` or `NaN`.
  - A smaller ratio is written in exponent form at line 122 and read as its leading digit: 1/2000000 is written `5e-7` and read as 5, so zone 480 gets the height 96 (`JsStrings.ParseIntOfExponentRatio`).
  - `UrlBuilder.CropExample` and `UrlBuilder.PortraitCropExample` state both cases.
- **No processor selected.** The empty URL is still written: an image gets `src=""` and any other element `background-image: url()` (`NoProcessorBlanksElement`).
- **Custom URL.** Only the first `%%source%%` of a custom template is substituted, and text after a second one is lost (`SourceStepDropsAfterSecondToken`).
- **Breakpoints.** They are not validated. Lists that are short, empty or not increasing are handled by the same comparisons: a comparison with `undefined` is false, and the last match wins.
- **The record.** It is written only on a swap, and only for a defined zone. `attr(name, undefined)` does nothing: jQuery returns the collection and writes no attribute.
- **A non-numeric record.** A `data-si-maxsize` set in the markup that `parseInt` cannot read, such as `abc`, reads as NaN. Under upsize-only the comparison at line 220 is then false for every zone, so the element is never swapped and the record never changes (`SwapGate.NonNumericRecordBlocks`).

## Model

| member | source | states |
|---|---|---|
| JsStrings.IntToString | jquery.smarterimages.js:138-150 | the text of a number in a concatenation is a non-empty string of digits and minus signs, all digits exactly when the number is not negative |
| JsStrings.OrUndefined | jquery.smarterimages.js:267 | the text `data-si-src` contributes to a URL (also at lines 138 and 141): its value when present, otherwise "undefined", which `parseInt` reads as NaN |
| JsStrings.ParseInt | jquery.smarterimages.js:135 | `parseInt` of a text starting with a digit is a non-negative number, of an empty text or one starting with anything but a digit or sign is NaN, and a negative result needs a leading minus |
| JsStrings.ParseIntOfIntToString | jquery.smarterimages.js:186-217 | a zone written to an attribute and read back with `parseInt` is the same zone |
| JsStrings.ParseIntOfRatio | jquery.smarterimages.js:135 | `parseInt` keeps only the integer part of a ratio written in decimal: "1.5" reads 1 and "0.75" reads 0 |
| JsStrings.ParseIntOfExponentRatio | jquery.smarterimages.js:122-135 | a ratio small enough to be written in exponent form reads as its leading digit: "5e-7" reads 5 |
| JsStrings.IndexOf | jquery.smarterimages.js:247-259 | the search `split` relies on: returns the leftmost occurrence of a token, and none exactly when the token does not occur |
| JsStrings.Split | jquery.smarterimages.js:247-259 | `split` yields at least one piece and no piece contains the separator (where the cuts fall is `SplitCutsAtLeftmost`) |
| JsStrings.SplitCutsAtLeftmost | jquery.smarterimages.js:247-259 | `split` cuts at the leftmost occurrence: one piece, the string itself, exactly when the separator is absent; otherwise the first piece is the text before the first occurrence and the remaining pieces are the split of the text after it |
| JsStrings.JoinSplit | jquery.smarterimages.js:247-255 | gluing the pieces of a split back with the separator restores the string |
| JsStrings.NoTokenInJoin | jquery.smarterimages.js:253-255 | gluing token-free pieces with a glue that shares no character with the token creates no occurrence of it |
| Zones.LastMidMatch | jquery.smarterimages.js:81-88 | the index the mid-range loop has kept after visiting 1 .. k-1 is the last one whose interval holds the width, and none when no interval does |
| Zones.ResolveZone | jquery.smarterimages.js:63-93 | a defined zone is always an entry of the breakpoint list |
| Zones.ZoneText | jquery.smarterimages.js:138-150 | the text a zone contributes to a URL reads back with `parseInt` as the zone; an undefined zone's text is NaN |
| Zones.EvalWidths | jquery.smarterimages.js:63-93 | the method with the mid-range loop returns exactly the zone `ResolveZone` defines |
| Zones.ZoneOutsideMidRange | jquery.smarterimages.js:69-77 | a positive width below the second entry gives the first entry; otherwise a width at or above the last entry gives the last |
| Zones.LastMatchWins | jquery.smarterimages.js:81-88 | with overlapping intervals the last matching mid-range index decides the zone |
| Zones.IncreasingHasOneInterval | jquery.smarterimages.js:81-88 | in a strictly increasing list at most one interval holds a width |
| Zones.ZoneIsGreatestNotExceeding | jquery.smarterimages.js:63-93 | for a strictly increasing list and a width at or above the second entry, the zone is the greatest entry not above the width |
| Zones.MidIntervalExists | jquery.smarterimages.js:81-88 | a width between the second entry and a later one lies in some interval of the scan |
| Zones.ZoneUndefinedIff | jquery.smarterimages.js:63-93 | for a strictly increasing list of two or more entries the zone is undefined if and only if the width is not positive and below the second entry |
| Zones.DefaultBreakpointsIncrease | jquery.smarterimages.js:277 | the default breakpoints are six strictly increasing widths |
| Zones.ScenarioZones | jquery.smarterimages.js:63-93 | over [360, 480, 768] width 500 resolves to 480 and width 400 to 360 |
| Zones.OverlapExample | jquery.smarterimages.js:81-88 | over [0, 100, 300, 200, 400] width 250 resolves to 200, the later of two matching intervals |
| SwapGate.RecordMaxSize | jquery.smarterimages.js:185-187 | under upsize-only a defined zone is recorded as text that reads back as the zone; otherwise the attribute is unchanged |
| SwapGate.RecordAfterPass | jquery.smarterimages.js:36-41 | the record after one event (written at lines 185-187): never written without upsize-only, changed only when the gate opened and then to text that reads back as the zone, and a defined zone that passed the gate is what it reads back as |
| SwapGate.FireLoadImageLogic | jquery.smarterimages.js:200-230 | the gate is open without upsize-only or before the first record, shut for an undefined zone once a record exists, and when open under a record the record is a number not above the zone |
| SwapGate.Highest | jquery.smarterimages.js:185-187 | the largest zone seen, the value the upsize-only record is proved to hold: undefined only when both inputs are, never below either, and one of the two |
| SwapGate.GateCases | jquery.smarterimages.js:200-230 | the gate is open without upsize-only and before the first record, and otherwise exactly for a defined zone at least the recorded number |
| SwapGate.NonNumericRecordBlocks | jquery.smarterimages.js:214-223 | a record that is not a number keeps the gate shut and the record as it is |
| SwapGate.GateKeepsHighest | jquery.smarterimages.js:185-230 | under upsize-only, starting from an absent or numeric record, gate then record keeps a numeric record equal to the largest zone seen |
| SwapGate.NoRecordWithoutUpsizeOnly | jquery.smarterimages.js:185-230 | without upsize-only the gate is always open and the record is never written |
| UrlTemplate.CustomUrlTreatment | jquery.smarterimages.js:241-271 | the method with the accumulation loop returns exactly `CustomUrl` of the template, zone and source |
| UrlTemplate.SubstituteSize | jquery.smarterimages.js:247-255 | for a defined zone no `%%size%%` remains after the size step, and a template without the token is unchanged |
| UrlTemplate.SubstituteSource | jquery.smarterimages.js:259-267 | the first `%%source%%` is replaced by the source and followed by the text up to the next token; without the token the source and "undefined" are appended |
| UrlTemplate.CustomUrl | jquery.smarterimages.js:241-271 | a template with neither token comes back with the source and "undefined" appended |
| UrlTemplate.ZoneTextAvoidsSizeToken | jquery.smarterimages.js:254 | the text of a defined zone shares no character with `%%size%%` |
| UrlTemplate.SizeStepKeepsPieces | jquery.smarterimages.js:247-255 | the size step glues, with the zone's text, exactly the pieces that glued with `%%size%%` give back the template |
| UrlTemplate.OverlappingSizeTokens | jquery.smarterimages.js:247 | "%%size%%size%%" splits at its leftmost `%%size%%` into "" and "size%%" |
| UrlTemplate.OverlappingSizeStep | jquery.smarterimages.js:247-255 | the size step on "%%size%%size%%" for zone 480 gives "480size%%" |
| UrlTemplate.SizeStepWithoutToken | jquery.smarterimages.js:247-255 | a template without `%%size%%` is unchanged by the size step |
| UrlTemplate.SourceStepWithoutToken | jquery.smarterimages.js:259-267 | without `%%source%%` the result is the text, the source, then "undefined" |
| UrlTemplate.SourceStepOneToken | jquery.smarterimages.js:259-267 | with one `%%source%%` the source takes its place |
| UrlTemplate.SourceStepDropsAfterSecondToken | jquery.smarterimages.js:259-267 | with two or more `%%source%%` only the first is replaced and the text from the second on is dropped |
| UrlTemplate.CustomUrlOfPlainTemplate | jquery.smarterimages.js:241-271 | a template of prefix, one `%%source%%` and suffix, with no size token, becomes prefix, source, suffix |
| UrlTemplate.CustomUrlExample | jquery.smarterimages.js:241-271 | "a/%%size%%/b/%%source%%/%%size%%" for zone 480 and source "cat.jpg" becomes "a/480/b/cat.jpg/480" |
| UrlBuilder.CropHeight | jquery.smarterimages.js:136 | `Math.floor` of zone over a non-zero ratio: the largest height whose product with the ratio does not pass the zone |
| UrlBuilder.SelectedProcessor | jquery.smarterimages.js:129-155 | the precedence of the `if / else if` chain: cloudimage.io whenever its flag is set, the custom URL only without it, placeholders only without both, and no processor exactly when no flag is set |
| UrlBuilder.HeightText | jquery.smarterimages.js:135-136 | the height text reads back with `parseInt` as `Math.floor(zone / ratio)` for a defined zone and non-zero ratio, and as NaN otherwise (`Infinity`, `-Infinity`, or `NaN`, which is also the text for an undefined zone) |
| UrlBuilder.CloudImageResizeUrl | jquery.smarterimages.js:141 | the resize URL is the service prefix followed by text that reads back as the zone, and it ends with the source |
| UrlBuilder.CloudImageCropUrl | jquery.smarterimages.js:135-138 | the crop URL is the service prefix, text that reads back as the zone, "x", text that reads back as the height, and it ends with the source |
| UrlBuilder.PlaceholderUrl | jquery.smarterimages.js:150 | both dimensions of the placeholder URL read back with `parseInt` as the zone |
| UrlBuilder.BuildUrl | jquery.smarterimages.js:126-156 | the URL is the crop or resize URL under cloudimage.io, else the custom URL, else the placeholder URL, else empty |
| UrlBuilder.SingleFlagSelectsItsProcessor | jquery.smarterimages.js:128-156 | with exactly one processor flag set, each flag is set if and only if its processor is the one used |
| UrlBuilder.CropUrlHeight | jquery.smarterimages.js:132-138 | a crop URL for a positive ratio names the zone and a height whose product with the ratio is within one ratio below the zone |
| UrlBuilder.ResizeExample | jquery.smarterimages.js:141 | zone 768, service "demo", "https://" and "cat.jpg" give "https://demo.cloudimage.io/s/resize/768/cat.jpg" |
| UrlBuilder.CropExample | jquery.smarterimages.js:132-138 | a cached ratio "1.5" reads as 1, so zone 480 gives the crop ".../s/crop/480x480/cat.jpg" |
| UrlBuilder.PortraitCropExample | jquery.smarterimages.js:132-138 | a cached ratio "0.75" reads as 0 and the crop height of zone 480 reads "Infinity" |
| UrlBuilder.PlaceholderExample | jquery.smarterimages.js:150 | zone 360 with "http://" gives "http://placehold.it/360x360" |
| UrlBuilder.DefaultOptionsBuildEmptyUrl | jquery.smarterimages.js:276-298 | the defaults select no processor and the URL is empty |
| Element.AspectAfter | jquery.smarterimages.js:113-124 | with aspect maintenance an absent ratio is set and a present one kept; without it the attribute is untouched |
| Element.Ratio | jquery.smarterimages.js:135 | `parseInt` of the aspect attribute: NaN when the attribute is absent, a non-negative number for a text that starts with a digit (the exact value is `ParseIntOfRatio` and `ParseIntOfExponentRatio`) |
| Element.LoadImageUrl | jquery.smarterimages.js:113-155 | the `srcString` of `loadImage`: a crop uses the cached ratio when there is one and otherwise the ratio just measured, and every other URL does not depend on the ratio |
| Element.BackgroundValue | jquery.smarterimages.js:169-180 | the `'url(' + srcString + ')'` value is five characters longer than the URL (its injectivity is `BackgroundValueInjective`) |
| Element.Shows | jquery.smarterimages.js:163-171 | the comparison of the write guard: an image shows a URL only if its `src` is that URL, and another element only if its background is as long as that URL's `url(...)` value; the body is the exact comparison and `ShowsAtMostOneUrl` makes it exact |
| Element.BackgroundValueInjective | jquery.smarterimages.js:169-180 | distinct URLs give distinct background values, so the URL can be read back from the value |
| Element.ShowsAtMostOneUrl | jquery.smarterimages.js:163-171 | an element shows at most one URL, so the guard's comparison identifies the URL exactly |
| Element.Render | jquery.smarterimages.js:159-182 | after the guarded write the element shows the URL, only the field for its node type may change, and an element already showing it is left as it is |
| Element.LoadImageSpec | jquery.smarterimages.js:105-188 | after `loadImage` the element shows the URL built for it, its rendering changed if and only if it did not show it already, tag and source are kept, a cached ratio stays, and under upsize-only a defined zone is recorded |
| Element.LoadImageShowsUrl | jquery.smarterimages.js:105-188 | after `loadImage` the element shows the URL built for it and the other rendering field, tag and source are unchanged |
| Element.LoadImageWritesOnlyWhenNeeded | jquery.smarterimages.js:163-182 | the rendering changes if and only if the element did not already show the URL |
| Element.LoadImageCachesAspect | jquery.smarterimages.js:113-124 | the aspect ratio is measured at most once and never replaced |
| Element.LoadImageRecordsZone | jquery.smarterimages.js:185-187 | under upsize-only a defined zone is recorded and reads back as the zone; otherwise the record is unchanged |
| Element.LoadImageIdempotent | jquery.smarterimages.js:105-188 | a second `loadImage` for the same zone needs no write and changes nothing |
| Element.NoProcessorBlanksElement | jquery.smarterimages.js:152-182 | with no processor an image gets an empty `src` and any other element the background `url()` |
| Element.BlockedPassChangesNothing | jquery.smarterimages.js:36-41 | a pass the gate stops leaves the element as it was |
| Element.PassSpec | jquery.smarterimages.js:27-50 | a pass the gate stops changes nothing, one it lets through leaves the element showing the URL for the zone, and tag and source are kept |
| Element.RunPasses | jquery.smarterimages.js:27-50 | the element after a series of events in order: no events leave it as it is, and tag and source are always kept (the record is `RunRecordsHighest`) |
| Element.PassKeepsIdentity | jquery.smarterimages.js:27-50 | a pass keeps the tag, the source and a cached aspect ratio |
| Element.PassRecordsHighest | jquery.smarterimages.js:27-50 | under upsize-only a pass keeps the record numeric and equal to the largest zone seen |
| Element.PassIdempotent | jquery.smarterimages.js:27-50 | a second pass at the same width changes nothing |
| Element.RunRecordsHighest | jquery.smarterimages.js:27-50 | under upsize-only, starting from an absent or numeric record, the record after any series of events is the largest zone evaluated, counting the starting record |
| Element.HighestZoneGrows | jquery.smarterimages.js:200-230 | the largest zone seen never falls below where it started |
| Element.RecordNeverDecreases | jquery.smarterimages.js:185-230 | under upsize-only a recorded maximum never decreases over any series of events |
| Element.RunKeepsIdentity | jquery.smarterimages.js:27-50 | over any series of events the tag and source never change and a cached aspect ratio stays |
| Element.UpsizeScenario | jquery.smarterimages.js:27-50 | over [360, 480, 768] width 500 swaps and records 480; then width 400 keeps the gate shut and writes nothing |
| Element.ManagedElement.constructor | jquery.smarterimages.js:33 | the object holds the given element state |
| Element.ManagedElement.LoadImage | jquery.smarterimages.js:105-188 | the in-place update leaves the element in exactly the state `LoadImageSpec` defines |
| Element.ManagedElement.Pass | jquery.smarterimages.js:27-50 | the event handler for one element returns the gate's verdict and leaves the state `PassSpec` defines |

## Left out

- Plugin registration, the `$.extend` of the options and the binding of `load` and `resize` (lines 17-51). The viewport width is a parameter of `Pass`.
- The jQuery collection: one element is modelled. jQuery's `attr` reads the first element of `obj` and writes all of them.
- The `onImgSwap` callback (lines 44-48). It is foreign code; `Pass` returns the condition under which it would be called.
- Console logging (lines 24, 154, 262-264). `Options.logging` is kept but has no effect in the model.
- The aspect measurement `innerWidth() / innerHeight()` (lines 113-124) is DOM I/O and floating point. The text the ratio is written as is the `boxAspect` parameter.
- The browser's normalisation of the `background-image` value. Browsers usually return it quoted and as an absolute URL, so the write guard is modelled on the value as written.
- Zones and widths are integers. Fractional widths and JavaScript's double rounding are not modelled.
- ParseInt: negative zero is not modelled. In JavaScript `parseInt("-0.5")` is `-0`, and `Math.floor(480 / -0)` is `-Infinity`; the model reads `0` and its height text is "Infinity". Leading white space, a `0x` prefix and digits beyond double precision are not modelled either. Texts such as "Infinity" are modelled: they read as NaN.
- IntToString: the exponent form that numbers of 1e21 and above take in JavaScript is not modelled.
- HeightText: a ratio read as negative zero (a cached ratio between -1 and 0) gives "Infinity" for a positive zone, where JavaScript gives "-Infinity" (see ParseInt). A height of negative zero is written "0", which matches JavaScript's `String(-0)`.
- The `data-si-src` check at lines 262-264 only logs. A missing source reads "undefined" in every URL.

=== FILE: custom_url.dfy ===
/**
  Custom-URL templating (`customURLTreatment`): every `%%size%%` of the template becomes
  the zone's text, then the text is split at `%%source%%` and only the first two pieces
  are joined around the element's `data-si-src`.
*/
module UrlTemplate {
  import opened Wrappers
  import opened JsStrings
  import opened Zones

  const SizeToken: string := "%%size%%"
  const SourceToken: string := "%%source%%"

  /**
    The template with every `%%size%%` replaced by the zone's text: for a defined zone
    none is left, and a template without the token is unchanged.
  */
  function SubstituteSize(template: string, zone: Option<int>): (r: string)
    ensures zone.Some? ==> !Contains(r, SizeToken)
    ensures IndexOf(template, SizeToken).None? ==> r == template
  {
    var parts := Split(template, SizeToken);
    if zone.Some? then
      ZoneTextAvoidsSizeToken(zone.value);
      NoTokenInJoin(parts, ZoneText(zone), SizeToken);
      Join(parts, ZoneText(zone))
    else
      Join(parts, ZoneText(zone))
  }

  /**
    `tempArr = url.split('%%source%%'); tempArr[0] + data-si-src + tempArr[1]`: the
    source replaces the first `%%source%%` and what follows is the text up to the next
    one; without the token the source and "undefined" are appended.
  */
  function SubstituteSource(url: string, dataSrc: Option<string>): (r: string)
    ensures IndexOf(url, SourceToken).None? ==> r == url + OrUndefined(dataSrc) + "undefined"
    ensures IndexOf(url, SourceToken).Some? ==>
              var i := IndexOf(url, SourceToken).value;
              r == url[..i] + OrUndefined(dataSrc) + Split(url[i + |SourceToken|..], SourceToken)[0]
  {
    var parts := Split(url, SourceToken);
    parts[0] + OrUndefined(dataSrc) + (if |parts| >= 2 then parts[1] else "undefined")
  }

  /**
    The URL `customURLTreatment` returns; a template with neither token gets the
    source and "undefined" appended.
  */
  function CustomUrl(template: string, zone: Option<int>, dataSrc: Option<string>): (r: string)
    ensures IndexOf(template, SizeToken).None? && IndexOf(template, SourceToken).None? ==>
              r == template + OrUndefined(dataSrc) + "undefined"
  {
    SubstituteSource(SubstituteSize(template, zone), dataSrc)
  }

  /** `customURLTreatment(options, obj, thisZone)`, with its accumulation loop. */
  method CustomUrlTreatment(customURL: string, dataSrc: Option<string>, thisZone: Option<int>)
    returns (url: string)
    ensures url == CustomUrl(customURL, thisZone, dataSrc)
  {
    var zoneText := ZoneText(thisZone);
    var tempArr := Split(customURL, SizeToken);
    url := tempArr[0];
    var j := 1;
    while j < |tempArr|
      invariant 1 <= j <= |tempArr|
      invariant url == Join(tempArr[..j], zoneText)
    {
      assert tempArr[..j + 1][..j] == tempArr[..j];
      url := url + zoneText + tempArr[j];
      j := j + 1;
    }
    assert tempArr[..|tempArr|] == tempArr;
    tempArr := Split(url, SourceToken);
    url := tempArr[0] + OrUndefined(dataSrc) + (if |tempArr| >= 2 then tempArr[1] else "undefined");
  }

  // ---------------------------------------------------------------------------------
  // Properties of the size step

  /** The text of a defined zone shares no character with `%%size%%`. */
  lemma ZoneTextAvoidsSizeToken(z: int)
    ensures forall i, j :: 0 <= i < |ZoneText(Some(z))| && 0 <= j < |SizeToken| ==>
              ZoneText(Some(z))[i] != SizeToken[j]
  {
    var t := IntToString(z);
    forall i, j | 0 <= i < |t| && 0 <= j < |SizeToken| ensures t[i] != SizeToken[j] {
      assert IsDigit(t[i]) || t[i] == '-';
    }
  }

  /**
    The size step keeps the text between tokens: the pieces it glues together with the
    zone's text give back the template when glued with `%%size%%` instead.
  */
  lemma SizeStepKeepsPieces(template: string, zone: Option<int>)
    ensures var parts := Split(template, SizeToken);
            SubstituteSize(template, zone) == Join(parts, ZoneText(zone)) &&
            Join(parts, SizeToken) == template
  {
    JoinSplit(template, SizeToken);
  }

  /** A template without `%%size%%` is unchanged by the size step. */
  lemma SizeStepWithoutToken(template: string, zone: Option<int>)
    requires !Contains(template, SizeToken)
    ensures SubstituteSize(template, zone) == template
  {
    SplitWithoutSeparator(template, SizeToken);
  }

  // ---------------------------------------------------------------------------------
  // Properties of the source step

  /** Without `%%source%%` the missing second piece reads "undefined". */
  lemma SourceStepWithoutToken(url: string, dataSrc: Option<string>)
    requires !Contains(url, SourceToken)
    ensures SubstituteSource(url, dataSrc) == url + OrUndefined(dataSrc) + "undefined"
  {
    SplitWithoutSeparator(url, SourceToken);
  }

  /** With exactly one `%%source%%`, the source takes its place. */
  lemma SourceStepOneToken(url: string, dataSrc: Option<string>, i: nat)
    requires IndexOf(url, SourceToken) == Some(i)
    requires !Contains(url[i + |SourceToken|..], SourceToken)
    ensures SubstituteSource(url, dataSrc)
              == url[..i] + OrUndefined(dataSrc) + url[i + |SourceToken|..]
  {
    SplitWithoutSeparator(url[i + |SourceToken|..], SourceToken);
  }

  /**
    With two or more `%%source%%`, only the first is replaced and everything from the
    second one on is dropped.
  */
  lemma SourceStepDropsAfterSecondToken(url: string, dataSrc: Option<string>, i: nat, j: nat)
    requires IndexOf(url, SourceToken) == Some(i)
    requires IndexOf(url[i + |SourceToken|..], SourceToken) == Some(j)
    ensures SubstituteSource(url, dataSrc)
              == url[..i] + OrUndefined(dataSrc) + url[i + |SourceToken|..][..j]
  {
    var rest := url[i + |SourceToken|..];
    assert Split(url, SourceToken) == [url[..i]] + Split(rest, SourceToken);
    assert Split(rest, SourceToken)[0] == rest[..j];
  }

  /** A template with one `%%source%%` and no size token is prefix, source, suffix. */
  lemma CustomUrlOfPlainTemplate(prefix: string, suffix: string, zone: Option<int>, src: string)
    requires !Contains(prefix + SourceToken[..|SourceToken| - 1], SourceToken)
    requires !Contains(suffix, SourceToken)
    requires !Contains(prefix + SourceToken + suffix, SizeToken)
    ensures CustomUrl(prefix + SourceToken + suffix, zone, Some(src)) == prefix + src + suffix
  {
    var t := prefix + SourceToken + suffix;
    SizeStepWithoutToken(t, zone);
    var n := |prefix|;
    assert OccursAt(t, SourceToken, n) by {
      assert t[n..n + |SourceToken|] == SourceToken;
    }
    var head := prefix + SourceToken[..|SourceToken| - 1];
    assert head == t[..|head|];
    forall j: nat | j < n ensures !OccursAt(t, SourceToken, j) {
      assert t[j..j + |SourceToken|] == t[..|head|][j..j + |SourceToken|];
      assert !OccursAt(head, SourceToken, j);
    }
    IndexOfFirstOccurrence(t, SourceToken, n);
    assert t[n + |SourceToken|..] == suffix;
    SourceStepOneToken(t, Some(src), n);
    assert t[..n] == prefix;
  }

  // ---------------------------------------------------------------------------------
  // The worked template "a/%%size%%/b/%%source%%/%%size%%" for zone 480 and source
  // "cat.jpg". The strings are passed as parameters fixed by the preconditions, which
  // keeps the verifier from unfolding the recursive search on literals without end.

  /** A string whose first token ends it splits into the text before it and "". */
  lemma SplitTokenAtEnd(p: string, tok: string)
    requires |tok| > 0 && IndexOf(p + tok, tok) == Some(|p|)
    ensures Split(p + tok, tok) == [p, ""]
  {
    var s := p + tok;
    assert s[|p| + |tok|..] == "";
    assert s[..|p|] == p;
    assert Split("", tok) == [""];
  }

  /**
    Overlapping tokens: in "%%size%%size%%" the leftmost `%%size%%` starts at 0, so the
    pieces are "" and "size%%".
  */
  lemma OverlappingSizeTokens()
    ensures Split("%%size%%size%%", SizeToken) == ["", "size%%"]
  {
    var s := "%%size%%size%%";
    assert s[..|SizeToken|] == SizeToken;
    assert IndexOf(s, SizeToken) == Some(0);
    assert s[|SizeToken|..] == "size%%";
    assert IndexOf("size%%", SizeToken).None?;
    SplitFirstCut(s, SizeToken);
  }

  /** The size step on "%%size%%size%%" for zone 480 gives "480size%%", not "%%size480". */
  lemma OverlappingSizeStep()
    ensures SubstituteSize("%%size%%size%%", Some(480)) == "480size%%"
  {
    OverlappingSizeTokens();
    ExampleZoneText();
    assert Join(["", "size%%"], "480") == "" + "480" + "size%%";
  }

  lemma ExampleTailPieces(mid: string, rest: string)
    requires mid == "/b/%%source%%/" && rest == mid + SizeToken
    ensures Split(rest, SizeToken) == [mid, ""]
  {
    assert forall i :: 3 <= i < 17 ==> rest[i] != SizeToken[3];
    NoOccurrenceBefore(rest, SizeToken, 14, 3);
    assert OccursAt(rest, SizeToken, 14);
    IndexOfFirstOccurrence(rest, SizeToken, 14);
    SplitTokenAtEnd(mid, SizeToken);
  }

  lemma ExampleSizePieces(t: string, mid: string)
    requires mid == "/b/%%source%%/" && t == "a/" + SizeToken + mid + SizeToken
    ensures Split(t, SizeToken) == ["a/", mid, ""]
  {
    var rest := mid + SizeToken;
    assert t == "a/" + SizeToken + rest;
    IndexOfAfterPlainPrefix("a/", SizeToken, rest);
    assert t[..2] == "a/";
    assert t[10..] == rest;
    ExampleTailPieces(mid, rest);
  }

  /** A `%%source%%` first found after `p` and followed by text too short to hold another. */
  lemma SourceStepShortTail(p: string, q: string, src: string)
    requires IndexOf(p + SourceToken + q, SourceToken) == Some(|p|)
    requires |q| < |SourceToken|
    ensures SubstituteSource(p + SourceToken + q, Some(src)) == p + src + q
  {
    var u := p + SourceToken + q;
    var n := |p|;
    assert u[n + |SourceToken|..] == q;
    assert u[..n] == p;
    assert !Contains(q, SourceToken) by {
      forall j: nat ensures !OccursAt(q, SourceToken, j) {
      }
    }
    SourceStepOneToken(u, Some(src), n);
  }

  lemma ExampleSourceText()
    ensures "a/480/b/" + "cat.jpg" + "/480" == "a/480/b/cat.jpg/480"
  {
  }

  lemma ExampleSourceStep(u: string, src: string)
    requires u == "a/480/b/" + SourceToken + "/480" && src == "cat.jpg"
    ensures SubstituteSource(u, Some(src)) == "a/480/b/cat.jpg/480"
  {
    IndexOfAfterPlainPrefix("a/480/b/", SourceToken, "/480");
    SourceStepShortTail("a/480/b/", "/480", src);
    ExampleSourceText();
  }

  lemma ExampleZoneText()
    ensures ZoneText(Some(480)) == "480"
  {
    assert NatToString(4) == "4";
    assert NatToString(48) == "48";
  }

  lemma ExampleJoin(parts: seq<string>, mid: string, d: string)
    requires mid == "/b/%%source%%/" && parts == ["a/", mid, ""] && d == "480"
    ensures Join(parts, d) == "a/480/b/" + SourceToken + "/480"
  {
    assert parts[..2][..1] == ["a/"];
    assert parts[..2] == ["a/", mid];
    assert Join(parts[..2][..1], d) == "a/";
    assert Join(parts[..2], d) == "a/" + d + mid;
  }

  lemma ExampleSizeStep(t: string, mid: string)
    requires mid == "/b/%%source%%/" && t == "a/" + SizeToken + mid + SizeToken
    ensures SubstituteSize(t, Some(480)) == "a/480/b/" + SourceToken + "/480"
  {
    ExampleSizePieces(t, mid);
    ExampleZoneText();
    ExampleJoin(Split(t, SizeToken), mid, ZoneText(Some(480)));
  }

  /** Both steps on the worked template, given as its pieces. */
  lemma ExampleCustomUrl(t: string, mid: string)
    requires mid == "/b/%%source%%/" && t == "a/" + SizeToken + mid + SizeToken
    ensures CustomUrl(t, Some(480), Some("cat.jpg")) == "a/480/b/cat.jpg/480"
  {
    ExampleSizeStep(t, mid);
    ExampleSourceStep(SubstituteSize(t, Some(480)), "cat.jpg");
  }

  /** Both size tokens and the one source token of the worked template are filled in. */
  lemma CustomUrlExample()
    ensures CustomUrl("a/%%size%%/b/%%source%%/%%size%%", Some(480), Some("cat.jpg")) == "a/480/b/cat.jpg/480"
  {
    var mid := "/b/%%source%%/";
    var t := "a/" + SizeToken + mid + SizeToken;
    assert t == "a/%%size%%/b/%%source%%/%%size%%";
    ExampleCustomUrl(t, mid);
  }
}

=== FILE: element.dfy ===
/**
  One managed element and what a resize event does to it: the zone is evaluated, the
  swap gate decides, and `loadImage` caches the aspect ratio, builds the URL, writes it
  only when it differs from what is shown, and records the zone under upsize-only.
*/
module Element {
  import opened Wrappers
  import opened JsStrings
  import opened Zones
  import opened SwapGate
  import opened UrlTemplate
  import opened UrlBuilder

  /**
    The parts of an element the plugin reads and writes: whether its tag is `IMG`, the
    `data-si-src` attribute, the `src` attribute, the `background-image` style, and the
    `data-si-maxsize` and `data-si-aspect` attributes (`None` when absent).
  */
  datatype ElementState = ElementState(
    isImg: bool,
    dataSrc: Option<string>,
    src: Option<string>,
    bgImage: string,
    maxSize: Option<string>,
    aspect: Option<string>)

  /** The `background-image` value that shows `url`: the URL wrapped in `url(` and `)`. */
  function BackgroundValue(url: string): (v: string)
    ensures |v| == |url| + 5
  {
    "url(" + url + ")"
  }

  /** Whether the element shows `url`: its `src` for an image, its background otherwise. */
  predicate Shows(e: ElementState, url: string): (b: bool)
    ensures b && e.isImg ==> e.src == Some(url)
    ensures b && !e.isImg ==> |e.bgImage| == |url| + 5
  {
    if e.isImg then e.src == Some(url) else e.bgImage == BackgroundValue(url)
  }

  /**
    The aspect attribute after `loadImage`'s first step: with aspect maintenance on, an
    absent attribute is set to `boxAspect`, the text of the element's measured
    width/height ratio; a present one is kept.
  */
  function AspectAfter(maintainAspect: bool, aspect: Option<string>, boxAspect: string): (r: Option<string>)
    ensures aspect.Some? ==> r == aspect
    ensures maintainAspect ==> r.Some?
    ensures !maintainAspect ==> r == aspect
  {
    if maintainAspect && aspect.None? then Some(boxAspect) else aspect
  }

  /** `parseInt(obj.attr('data-si-aspect'))`; `parseInt(undefined)` is NaN. */
  function Ratio(aspect: Option<string>): (r: Option<int>)
    ensures aspect.None? ==> r.None?
    ensures aspect.Some? && |aspect.value| > 0 && IsDigit(aspect.value[0]) ==> r.Some? && r.value >= 0
  {
    match aspect
    case None => None
    case Some(text) => ParseInt(text)
  }

  /** The URL `loadImage` builds for the element. */
  function LoadImageUrl(opts: Options, e: ElementState, zone: Option<int>, boxAspect: string): (url: string)
    ensures SelectedProcessor(opts) == CloudImage && opts.maintainAspect && e.aspect.Some? ==>
              url == CloudImageCropUrl(opts, zone, Ratio(e.aspect), e.dataSrc)
    ensures SelectedProcessor(opts) == CloudImage && opts.maintainAspect && e.aspect.None? ==>
              url == CloudImageCropUrl(opts, zone, Ratio(Some(boxAspect)), e.dataSrc)
    ensures !(SelectedProcessor(opts) == CloudImage && opts.maintainAspect) ==>
              url == BuildUrl(opts, e.dataSrc, None, zone)
  {
    BuildUrl(opts, e.dataSrc, Ratio(AspectAfter(opts.maintainAspect, e.aspect, boxAspect)), zone)
  }

  /** The guarded write: the element is changed only when it does not show `url` yet. */
  function Render(e: ElementState, url: string): (r: ElementState)
    ensures Shows(r, url)
    ensures r.isImg == e.isImg && r.dataSrc == e.dataSrc
    ensures r.maxSize == e.maxSize && r.aspect == e.aspect
    ensures e.isImg ==> r.bgImage == e.bgImage
    ensures !e.isImg ==> r.src == e.src
    ensures Shows(e, url) ==> r == e
  {
    if Shows(e, url) then e
    else if e.isImg then e.(src := Some(url))
    else e.(bgImage := BackgroundValue(url))
  }

  /** The element after `loadImage(options, obj, zone)`. */
  function LoadImageSpec(opts: Options, e: ElementState, zone: Option<int>, boxAspect: string): (r: ElementState)
    ensures Shows(r, LoadImageUrl(opts, e, zone, boxAspect))
    ensures (r.src == e.src && r.bgImage == e.bgImage) <==> Shows(e, LoadImageUrl(opts, e, zone, boxAspect))
    ensures r.isImg == e.isImg && r.dataSrc == e.dataSrc
    ensures e.aspect.Some? ==> r.aspect == e.aspect
    ensures opts.upsizeOnly && zone.Some? ==> RecordedSize(r.maxSize) == zone
  {
    var url := LoadImageUrl(opts, e, zone, boxAspect);
    var aspect := AspectAfter(opts.maintainAspect, e.aspect, boxAspect);
    var shown := Render(e, url);
    assert !Shows(e, url) && !e.isImg ==> e.bgImage != BackgroundValue(url);
    shown.(aspect := aspect, maxSize := RecordMaxSize(opts.upsizeOnly, e.maxSize, zone))
  }

  /** The element after one `load`/`resize` event at the given viewport width. */
  function PassSpec(opts: Options, e: ElementState, viewportWidth: int, boxAspect: string): (r: ElementState)
    ensures var zone := ResolveZone(opts.breakpoints, viewportWidth);
            !FireLoadImageLogic(opts.upsizeOnly, e.maxSize, zone) ==> r == e
    ensures var zone := ResolveZone(opts.breakpoints, viewportWidth);
            FireLoadImageLogic(opts.upsizeOnly, e.maxSize, zone) ==> Shows(r, LoadImageUrl(opts, e, zone, boxAspect))
    ensures r.isImg == e.isImg && r.dataSrc == e.dataSrc
  {
    var zone := ResolveZone(opts.breakpoints, viewportWidth);
    if FireLoadImageLogic(opts.upsizeOnly, e.maxSize, zone) then LoadImageSpec(opts, e, zone, boxAspect)
    else e
  }

  /** One `load` or `resize` event: the viewport width and the element's measured ratio text. */
  datatype Resize = Resize(viewportWidth: int, boxAspect: string)

  /** The element after a series of events, in order. */
  function RunPasses(opts: Options, e: ElementState, events: seq<Resize>): (r: ElementState)
    ensures r.isImg == e.isImg && r.dataSrc == e.dataSrc
    ensures |events| == 0 ==> r == e
    decreases |events|
  {
    if |events| == 0 then e
    else RunPasses(opts, PassSpec(opts, e, events[0].viewportWidth, events[0].boxAspect), events[1..])
  }

  /** The largest zone evaluated over a series of events, starting from a previous one. */
  function HighestZone(breakpoints: seq<int>, start: Option<int>, events: seq<Resize>): Option<int>
    decreases |events|
  {
    if |events| == 0 then start
    else HighestZone(breakpoints, Highest(start, ResolveZone(breakpoints, events[0].viewportWidth)), events[1..])
  }

  // ---------------------------------------------------------------------------------
  // The write guard

  /** The URL can be read back from a background value, so distinct URLs give distinct values. */
  lemma BackgroundValueInjective(u: string, v: string)
    requires BackgroundValue(u) == BackgroundValue(v)
    ensures u == v
  {
    var bu := BackgroundValue(u);
    assert bu[4..|bu| - 1] == u;
    assert BackgroundValue(v)[4..|bu| - 1] == v;
  }

  /** An element shows at most one URL, so the comparison at the write guard is exact. */
  lemma ShowsAtMostOneUrl(e: ElementState, u: string, v: string)
    requires Shows(e, u) && Shows(e, v)
    ensures u == v
  {
    if !e.isImg {
      BackgroundValueInjective(u, v);
    }
  }

  // ---------------------------------------------------------------------------------
  // loadImage

  /** After `loadImage` the element shows the URL built for it; nothing else is rendered. */
  lemma LoadImageShowsUrl(opts: Options, e: ElementState, zone: Option<int>, boxAspect: string)
    ensures var r := LoadImageSpec(opts, e, zone, boxAspect);
            Shows(r, LoadImageUrl(opts, e, zone, boxAspect)) &&
            r.isImg == e.isImg && r.dataSrc == e.dataSrc &&
            (e.isImg ==> r.bgImage == e.bgImage) && (!e.isImg ==> r.src == e.src)
  {
  }

  /** The write guard: the rendering changes exactly when the element did not show the URL. */
  lemma LoadImageWritesOnlyWhenNeeded(opts: Options, e: ElementState, zone: Option<int>, boxAspect: string)
    ensures var r := LoadImageSpec(opts, e, zone, boxAspect);
            (r.src == e.src && r.bgImage == e.bgImage) <==> Shows(e, LoadImageUrl(opts, e, zone, boxAspect))
  {
    var url := LoadImageUrl(opts, e, zone, boxAspect);
    if !Shows(e, url) && !e.isImg {
      assert e.bgImage != BackgroundValue(url);
    }
  }

  /** The aspect ratio is measured at most once and never replaced. */
  lemma LoadImageCachesAspect(opts: Options, e: ElementState, zone: Option<int>, boxAspect: string)
    ensures var r := LoadImageSpec(opts, e, zone, boxAspect);
            (e.aspect.Some? ==> r.aspect == e.aspect) &&
            (opts.maintainAspect && e.aspect.None? ==> r.aspect == Some(boxAspect)) &&
            (!opts.maintainAspect ==> r.aspect == e.aspect)
  {
  }

  /**
    Under upsize-only a defined zone is recorded as a number that reads back as the
    zone; an undefined zone, or no upsize-only, leaves the record as it was.
  */
  lemma LoadImageRecordsZone(opts: Options, e: ElementState, zone: Option<int>, boxAspect: string)
    ensures var r := LoadImageSpec(opts, e, zone, boxAspect);
            (opts.upsizeOnly && zone.Some? ==> RecordedSize(r.maxSize) == zone) &&
            (!(opts.upsizeOnly && zone.Some?) ==> r.maxSize == e.maxSize)
  {
  }

  /**
    A second `loadImage` for the same zone writes nothing and changes nothing, whatever
    the element measures the second time.
  */
  lemma LoadImageIdempotent(opts: Options, e: ElementState, zone: Option<int>, box1: string, box2: string)
    ensures var r := LoadImageSpec(opts, e, zone, box1);
            Shows(r, LoadImageUrl(opts, r, zone, box2)) &&
            LoadImageSpec(opts, r, zone, box2) == r
  {
    var r := LoadImageSpec(opts, e, zone, box1);
    assert LoadImageUrl(opts, r, zone, box2) == LoadImageUrl(opts, e, zone, box1);
  }

  /**
    With no processor selected the URL is empty and is still written: an image gets an
    empty `src`, any other element the background `url()`.
  */
  lemma NoProcessorBlanksElement(opts: Options, e: ElementState, zone: Option<int>, boxAspect: string)
    requires SelectedProcessor(opts) == NoProcessor
    ensures var r := LoadImageSpec(opts, e, zone, boxAspect);
            (e.isImg ==> r.src == Some("")) && (!e.isImg ==> r.bgImage == "url()")
  {
    assert LoadImageUrl(opts, e, zone, boxAspect) == "";
    assert BackgroundValue("") == "url()";
  }

  // ---------------------------------------------------------------------------------
  // One pass

  /** A pass the gate does not let through leaves the element as it was. */
  lemma BlockedPassChangesNothing(opts: Options, e: ElementState, viewportWidth: int, boxAspect: string)
    requires !FireLoadImageLogic(opts.upsizeOnly, e.maxSize, ResolveZone(opts.breakpoints, viewportWidth))
    ensures PassSpec(opts, e, viewportWidth, boxAspect) == e
  {
  }

  /** A pass keeps the element's tag and source, and its measured aspect once cached. */
  lemma PassKeepsIdentity(opts: Options, e: ElementState, viewportWidth: int, boxAspect: string)
    ensures var r := PassSpec(opts, e, viewportWidth, boxAspect);
            r.isImg == e.isImg && r.dataSrc == e.dataSrc &&
            (e.aspect.Some? ==> r.aspect == e.aspect)
  {
  }

  /** Under upsize-only a pass keeps the record a number and equal to the largest zone seen. */
  lemma PassRecordsHighest(opts: Options, e: ElementState, viewportWidth: int, boxAspect: string)
    requires opts.upsizeOnly && NumericRecord(e.maxSize)
    ensures var r := PassSpec(opts, e, viewportWidth, boxAspect);
            NumericRecord(r.maxSize) &&
            RecordedSize(r.maxSize) == Highest(RecordedSize(e.maxSize), ResolveZone(opts.breakpoints, viewportWidth))
  {
    var zone := ResolveZone(opts.breakpoints, viewportWidth);
    GateKeepsHighest(e.maxSize, zone);
    assert PassSpec(opts, e, viewportWidth, boxAspect).maxSize == RecordAfterPass(true, e.maxSize, zone);
  }

  /** A second pass at the same width changes nothing. */
  lemma PassIdempotent(opts: Options, e: ElementState, viewportWidth: int, box1: string, box2: string)
    ensures var r := PassSpec(opts, e, viewportWidth, box1);
            PassSpec(opts, r, viewportWidth, box2) == r
  {
    var zone := ResolveZone(opts.breakpoints, viewportWidth);
    if FireLoadImageLogic(opts.upsizeOnly, e.maxSize, zone) {
      var r := LoadImageSpec(opts, e, zone, box1);
      LoadImageIdempotent(opts, e, zone, box1, box2);
      if opts.upsizeOnly && zone.Some? {
        assert RecordedSize(r.maxSize) == zone;
        assert FireLoadImageLogic(opts.upsizeOnly, r.maxSize, zone);
      } else {
        assert r.maxSize == e.maxSize;
      }
    }
  }

  // ---------------------------------------------------------------------------------
  // A series of events

  /**
    Under upsize-only the record after any series of events is the largest zone
    evaluated, counting the record the element started with.
  */
  lemma {:induction false} RunRecordsHighest(opts: Options, e: ElementState, events: seq<Resize>)
    requires opts.upsizeOnly && NumericRecord(e.maxSize)
    ensures NumericRecord(RunPasses(opts, e, events).maxSize)
    ensures RecordedSize(RunPasses(opts, e, events).maxSize)
              == HighestZone(opts.breakpoints, RecordedSize(e.maxSize), events)
    decreases |events|
  {
    if |events| > 0 {
      var next := PassSpec(opts, e, events[0].viewportWidth, events[0].boxAspect);
      PassRecordsHighest(opts, e, events[0].viewportWidth, events[0].boxAspect);
      RunRecordsHighest(opts, next, events[1..]);
    }
  }

  /** The largest zone seen never falls below where it started. */
  lemma {:induction false} HighestZoneGrows(breakpoints: seq<int>, start: Option<int>, events: seq<Resize>)
    ensures start.Some? ==> HighestZone(breakpoints, start, events).Some?
    ensures start.Some? ==> HighestZone(breakpoints, start, events).value >= start.value
    decreases |events|
  {
    if |events| > 0 {
      HighestZoneGrows(breakpoints, Highest(start, ResolveZone(breakpoints, events[0].viewportWidth)), events[1..]);
    }
  }

  /** Under upsize-only a recorded maximum zone never decreases over any series of events. */
  lemma RecordNeverDecreases(opts: Options, e: ElementState, events: seq<Resize>)
    requires opts.upsizeOnly && RecordedSize(e.maxSize).Some?
    ensures RecordedSize(RunPasses(opts, e, events).maxSize).Some?
    ensures RecordedSize(RunPasses(opts, e, events).maxSize).value >= RecordedSize(e.maxSize).value
  {
    RunRecordsHighest(opts, e, events);
    HighestZoneGrows(opts.breakpoints, RecordedSize(e.maxSize), events);
  }

  /**
    The tag and source never change, and an aspect ratio once cached is the one the
    element keeps for every later event.
  */
  lemma {:induction false} RunKeepsIdentity(opts: Options, e: ElementState, events: seq<Resize>)
    ensures var r := RunPasses(opts, e, events);
            r.isImg == e.isImg && r.dataSrc == e.dataSrc &&
            (e.aspect.Some? ==> r.aspect == e.aspect)
    decreases |events|
  {
    if |events| > 0 {
      PassKeepsIdentity(opts, e, events[0].viewportWidth, events[0].boxAspect);
      RunKeepsIdentity(opts, PassSpec(opts, e, events[0].viewportWidth, events[0].boxAspect), events[1..]);
    }
  }

  /**
    Upsize scenario over breakpoints `[360, 480, 768]`: at width 500 an element without
    a record swaps and records 480; at width 400 the zone is 360, the gate stays shut
    and nothing is written.
  */
  lemma UpsizeScenario(opts: Options, e: ElementState, box: string)
    requires opts.breakpoints == [360, 480, 768] && opts.upsizeOnly
    requires e.maxSize.None?
    ensures var first := PassSpec(opts, e, 500, box);
            RecordedSize(first.maxSize) == Some(480) &&
            Shows(first, LoadImageUrl(opts, e, Some(480), box)) &&
            !FireLoadImageLogic(true, first.maxSize, ResolveZone(opts.breakpoints, 400)) &&
            PassSpec(opts, first, 400, box) == first
  {
    ScenarioZones();
    var first := PassSpec(opts, e, 500, box);
    LoadImageRecordsZone(opts, e, Some(480), box);
    LoadImageShowsUrl(opts, e, Some(480), box);
    assert ParseInt(first.maxSize.value) == Some(480);
  }

  // ---------------------------------------------------------------------------------
  // The element as an object

  /** A managed element whose attributes and style the plugin updates in place. */
  class ManagedElement {
    const isImg: bool
    const dataSrc: Option<string>
    var src: Option<string>
    var bgImage: string
    var maxSize: Option<string>
    var aspect: Option<string>

    function State(): ElementState
      reads this
    {
      ElementState(isImg, dataSrc, src, bgImage, maxSize, aspect)
    }

    constructor (e: ElementState)
      ensures State() == e
    {
      isImg := e.isImg;
      dataSrc := e.dataSrc;
      src := e.src;
      bgImage := e.bgImage;
      maxSize := e.maxSize;
      aspect := e.aspect;
    }

    /** `loadImage(options, obj, zone)` for this element; `boxAspect` is its measured ratio text. */
    method LoadImage(opts: Options, zone: Option<int>, boxAspect: string)
      modifies this
      ensures State() == LoadImageSpec(opts, old(State()), zone, boxAspect)
    {
      var isUnique := false;
      var isIMG := false;
      var srcString := "";
      ghost var e := State();
      ghost var url := LoadImageUrl(opts, e, zone, boxAspect);

      if opts.maintainAspect {
        if aspect.None? {
          aspect := Some(boxAspect);
        }
      }

      assert aspect == AspectAfter(opts.maintainAspect, e.aspect, boxAspect);
      assert url == BuildUrl(opts, dataSrc, Ratio(aspect), zone);

      if opts.useCloudImageIO {
        if opts.maintainAspect {
          var aspectRatio := Ratio(aspect);
          srcString := CloudImageCropUrl(opts, zone, aspectRatio, dataSrc);
        } else {
          srcString := CloudImageResizeUrl(opts, zone, dataSrc);
        }
      } else if opts.useCustomURL {
        srcString := CustomUrlTreatment(opts.customURL, dataSrc, zone);
      } else if opts.usePlaceholders {
        srcString := PlaceholderUrl(opts, zone);
      }
      assert srcString == url;

      isIMG := isImg;

      if isIMG {
        isUnique := src != Some(srcString);
      } else {
        isUnique := bgImage != BackgroundValue(srcString);
      }

      if isUnique {
        if isIMG {
          src := Some(srcString);
        } else {
          bgImage := BackgroundValue(srcString);
        }
      }

      if opts.upsizeOnly {
        match zone
        case Some(z) => maxSize := Some(IntToString(z));
        case None =>
      }
    }

    /**
      The handler of one `load`/`resize` event for this element; `swapped` is the gate's
      verdict, the condition under which the plugin also calls `onImgSwap`.
    */
    method Pass(opts: Options, viewportWidth: int, boxAspect: string) returns (swapped: bool)
      modifies this
      ensures swapped == FireLoadImageLogic(opts.upsizeOnly, old(maxSize), ResolveZone(opts.breakpoints, viewportWidth))
      ensures State() == PassSpec(opts, old(State()), viewportWidth, boxAspect)
    {
      var thisZone := EvalWidths(opts.breakpoints, viewportWidth);
      swapped := FireLoadImageLogic(opts.upsizeOnly, maxSize, thisZone);
      if swapped {
        LoadImage(opts, thisZone, boxAspect);
      }
    }
  }
}

=== FILE: js_strings.dfy ===
/**
  The few JavaScript string operations the plugin relies on: the text of a number in a
  concatenation, `parseInt`, the text of `undefined` in a concatenation, and
  `String.prototype.split` with a non-empty separator, together with the join that the
  plugin's loops perform by hand.
*/
module JsStrings {
  import opened Wrappers

  /** The text a possibly-undefined string contributes to a `+` concatenation. */
  function OrUndefined(s: Option<string>): (r: string)
    ensures s.Some? ==> r == s.value
    ensures s.None? ==> r == "undefined" && ParseInt(r).None?
  {
    match s
    case Some(v) => v
    case None => "undefined"
  }

  predicate IsDigit(c: char)
  {
    '0' <= c <= '9'
  }

  predicate AllDigits(s: string)
  {
    forall i :: 0 <= i < |s| ==> IsDigit(s[i])
  }

  function DigitChar(d: nat): (c: char)
    requires d < 10
    ensures IsDigit(c) && c as int - '0' as int == d
  {
    ('0' as int + d) as char
  }

  function DigitValue(c: char): (d: nat)
    requires IsDigit(c)
    ensures d < 10
  {
    c as int - '0' as int
  }

  /** Decimal text of a natural number, most significant digit first. */
  function NatToString(n: nat): (s: string)
    ensures |s| > 0 && AllDigits(s)
    ensures n == 0 <==> s == "0"
    ensures s[0] == '0' ==> n == 0
    decreases n
  {
    if n < 10 then [DigitChar(n)] else NatToString(n / 10) + [DigitChar(n % 10)]
  }

  /**
    The text an integral JavaScript number contributes to a concatenation
    (`zone + 'x'`, `'/' + zone`): an optional minus sign and decimal digits.
  */
  function IntToString(n: int): (s: string)
    ensures |s| > 0
    ensures forall i :: 0 <= i < |s| ==> IsDigit(s[i]) || s[i] == '-'
    ensures n >= 0 <==> AllDigits(s)
  {
    if n < 0 then
      var s := "-" + NatToString(-n);
      assert !IsDigit(s[0]);
      s
    else NatToString(n)
  }

  /** Value of a string of decimal digits, read left to right. */
  function DigitsValue(s: string): nat
    requires AllDigits(s)
  {
    if |s| == 0 then 0 else DigitsValue(s[..|s| - 1]) * 10 + DigitValue(s[|s| - 1])
  }

  /** Length of the run of decimal digits that starts the string. */
  function LeadingDigits(s: string): (k: nat)
    ensures k <= |s|
    ensures AllDigits(s[..k])
    ensures k < |s| ==> !IsDigit(s[k])
  {
    if |s| == 0 || !IsDigit(s[0]) then 0
    else
      var k := 1 + LeadingDigits(s[1..]);
      assert s[..k] == [s[0]] + s[1..][..k - 1];
      k
  }

  /**
    `parseInt(s)` on a string without leading white space or a `0x` prefix: an optional
    sign, then the longest run of digits; `None` stands for NaN (no digit at all).
  */
  function ParseInt(s: string): (r: Option<int>)
    ensures |s| > 0 && IsDigit(s[0]) ==> r.Some? && r.value >= 0
    ensures (|s| == 0 || !(IsDigit(s[0]) || s[0] == '-' || s[0] == '+')) ==> r.None?
    ensures r.Some? && r.value < 0 ==> s[0] == '-'
  {
    var signed := |s| > 0 && (s[0] == '-' || s[0] == '+');
    var body := if signed then s[1..] else s;
    var k := LeadingDigits(body);
    if k == 0 then None
    else if signed && s[0] == '-' then Some(0 - DigitsValue(body[..k]))
    else Some(DigitsValue(body[..k]))
  }

  lemma LeadingDigitsOfDigits(s: string)
    requires AllDigits(s)
    ensures LeadingDigits(s) == |s|
  {
  }

  lemma {:induction false} DigitsValueOfNatToString(n: nat)
    ensures DigitsValue(NatToString(n)) == n
    decreases n
  {
    var s := NatToString(n);
    if n < 10 {
      assert s[..0] == [];
    } else {
      DigitsValueOfNatToString(n / 10);
      assert s[..|s| - 1] == NatToString(n / 10);
    }
  }

  /** A run of digits followed by a non-digit (or nothing) is read up to its end. */
  lemma {:induction false} LeadingDigitsBeforeNonDigit(t: string, rest: string)
    requires AllDigits(t) && (|rest| == 0 || !IsDigit(rest[0]))
    ensures LeadingDigits(t + rest) == |t|
    decreases |t|
  {
    if |t| > 0 {
      assert (t + rest)[1..] == t[1..] + rest;
      LeadingDigitsBeforeNonDigit(t[1..], rest);
    }
  }

  /**
    `parseInt` reads the decimal text of a number back as the number, also when other
    text that does not start with a digit follows it, as in `zone + 'x' + ...`.
  */
  lemma ParseIntOfIntToStringThen(n: int, rest: string)
    requires |rest| == 0 || !IsDigit(rest[0])
    ensures ParseInt(IntToString(n) + rest) == Some(n)
  {
    if n < 0 {
      ParseIntOfNegativeThen(n, rest);
    } else {
      ParseIntOfNatThen(n, rest);
    }
  }

  lemma ParseIntOfNatThen(n: nat, rest: string)
    requires |rest| == 0 || !IsDigit(rest[0])
    ensures ParseInt(NatToString(n) + rest) == Some(n)
  {
    var t := NatToString(n);
    var s := t + rest;
    assert s[0] == t[0] && IsDigit(t[0]);
    LeadingDigitsBeforeNonDigit(t, rest);
    assert s[..|t|] == t;
    DigitsValueOfNatToString(n);
  }

  lemma ParseIntOfNegativeThen(n: int, rest: string)
    requires n < 0 && (|rest| == 0 || !IsDigit(rest[0]))
    ensures ParseInt(IntToString(n) + rest) == Some(n)
  {
    var t := NatToString(-n);
    var s := IntToString(n) + rest;
    assert s == "-" + (t + rest);
    assert s[0] == '-' && s[1..] == t + rest;
    LeadingDigitsBeforeNonDigit(t, rest);
    assert (t + rest)[..|t|] == t;
    DigitsValueOfNatToString(-n);
  }

  /**
    Reading back the decimal text of a number gives the number: an attribute written
    with `attr(name, zone)` and read with `parseInt` yields the zone again.
  */
  lemma ParseIntOfIntToString(n: int)
    ensures ParseInt(IntToString(n)) == Some(n)
  {
    ParseIntOfIntToStringThen(n, "");
    assert IntToString(n) + "" == IntToString(n);
  }

  /** `parseInt` keeps only the integer part of a decimal ratio. */
  lemma ParseIntOfRatio()
    ensures ParseInt("1.5") == Some(1)
    ensures ParseInt("0.75") == Some(0)
  {
    assert LeadingDigits("1.5"[1..]) == 0;
    assert LeadingDigits("1.5") == 1;
    assert "1.5"[..1] == "1" && "1"[..0] == "";
    assert LeadingDigits("0.75"[1..]) == 0;
    assert LeadingDigits("0.75") == 1;
    assert "0.75"[..1] == "0" && "0"[..0] == "";
  }

  /**
    A ratio below 1e-6 is written in exponent form, and `parseInt` then reads its
    leading digit: 1/2000000 is written "5e-7" and read as 5.
  */
  lemma ParseIntOfExponentRatio()
    ensures ParseInt("5e-7") == Some(5)
  {
    assert LeadingDigits("5e-7"[1..]) == 0;
    assert LeadingDigits("5e-7") == 1;
    assert "5e-7"[..1] == "5" && "5"[..0] == "";
  }

  // ---------------------------------------------------------------------------------
  // Searching, splitting and joining

  predicate OccursAt(s: string, tok: string, i: nat)
  {
    i + |tok| <= |s| && s[i..i + |tok|] == tok
  }

  ghost predicate Contains(s: string, tok: string)
  {
    exists i: nat :: OccursAt(s, tok, i)
  }

  lemma OccursAtTail(s: string, tok: string, j: nat)
    requires |s| > 0
    ensures OccursAt(s[1..], tok, j) <==> OccursAt(s, tok, j + 1)
  {
    if j + 1 + |tok| <= |s| {
      assert s[1..][j..j + |tok|] == s[j + 1..j + 1 + |tok|];
    }
  }

  lemma OccursAtPrefix(s: string, tok: string, i: nat, j: nat)
    requires i <= |s|
    ensures OccursAt(s[..i], tok, j) ==> OccursAt(s, tok, j) && j + |tok| <= i
  {
    if j + |tok| <= i {
      assert s[..i][j..j + |tok|] == s[j..j + |tok|];
    }
  }

  lemma OccursAtSuffix(s: string, tok: string, i: nat, j: nat)
    requires i <= |s|
    ensures OccursAt(s[i..], tok, j) <==> OccursAt(s, tok, i + j)
  {
    if i + j + |tok| <= |s| {
      assert s[i..][j..j + |tok|] == s[i + j..i + j + |tok|];
    }
  }

  /** Index of the first occurrence of a non-empty token, as `indexOf` finds it. */
  function IndexOf(s: string, tok: string): (r: Option<nat>)
    requires |tok| > 0
    ensures r.Some? ==> OccursAt(s, tok, r.value)
    ensures r.Some? ==> forall j: nat :: j < r.value ==> !OccursAt(s, tok, j)
    ensures r.None? <==> !Contains(s, tok)
    decreases |s|
  {
    if |s| < |tok| then None
    else if s[..|tok|] == tok then Some(0)
    else
      match IndexOf(s[1..], tok)
      case None =>
        assert forall j: nat :: !OccursAt(s, tok, j) by {
          forall j: nat ensures !OccursAt(s, tok, j) {
            if j > 0 { OccursAtTail(s, tok, j - 1); }
          }
        }
        None
      case Some(i) =>
        OccursAtTail(s, tok, i);
        assert forall j: nat :: j < i + 1 ==> !OccursAt(s, tok, j) by {
          forall j: nat | j < i + 1 ensures !OccursAt(s, tok, j) {
            if j > 0 { OccursAtTail(s, tok, j - 1); }
          }
        }
        Some(i + 1)
  }

  /** The first occurrence of a token is the one `IndexOf` finds. */
  lemma IndexOfFirstOccurrence(s: string, tok: string, n: nat)
    requires |tok| > 0 && OccursAt(s, tok, n)
    requires forall j: nat :: j < n ==> !OccursAt(s, tok, j)
    ensures IndexOf(s, tok) == Some(n)
  {
    var r := IndexOf(s, tok);
    assert r.Some?;
    assert r.value <= n;
  }

  /**
    No occurrence starts before `n` when the character the token has at offset `k`
    appears nowhere an earlier occurrence would need it.
  */
  lemma NoOccurrenceBefore(s: string, tok: string, n: nat, k: nat)
    requires k < |tok| && n + k <= |s|
    requires forall i :: k <= i < n + k ==> s[i] != tok[k]
    ensures forall j: nat :: j < n ==> !OccursAt(s, tok, j)
  {
    forall j: nat | j < n ensures !OccursAt(s, tok, j) {
      if j + |tok| <= |s| {
        assert s[j..j + |tok|][k] == s[j + k];
      }
    }
  }

  /** A token right after a prefix free of its first character is found right there. */
  lemma IndexOfAfterPlainPrefix(p: string, tok: string, q: string)
    requires |tok| > 0
    requires forall i :: 0 <= i < |p| ==> p[i] != tok[0]
    ensures IndexOf(p + tok + q, tok) == Some(|p|)
  {
    var s := p + tok + q;
    assert s[|p|..|p| + |tok|] == tok;
    forall j: nat | j < |p| ensures !OccursAt(s, tok, j) {
      if j + |tok| <= |s| {
        assert s[j..j + |tok|][0] == p[j];
      }
    }
    IndexOfFirstOccurrence(s, tok, |p|);
  }

  /** `s.split(sep)` for a non-empty separator: the pieces between leftmost occurrences. */
  function Split(s: string, sep: string): (parts: seq<string>)
    requires |sep| > 0
    ensures |parts| >= 1
    ensures forall k :: 0 <= k < |parts| ==> !Contains(parts[k], sep)
    decreases |s|
  {
    match IndexOf(s, sep)
    case None => [s]
    case Some(i) =>
      var rest := Split(s[i + |sep|..], sep);
      assert !Contains(s[..i], sep) by {
        forall j: nat ensures !OccursAt(s[..i], sep, j) {
          OccursAtPrefix(s, sep, i, j);
        }
      }
      [s[..i]] + rest
  }

  /** The head and the tail of a sequence built as `[x] + r`. */
  lemma ConsParts<T>(x: T, r: seq<T>)
    ensures ([x] + r)[0] == x && ([x] + r)[1..] == r
  {
  }

  /** The split of a string with an occurrence of the separator, cut at the first one. */
  lemma SplitFirstCut(s: string, sep: string)
    requires |sep| > 0 && IndexOf(s, sep).Some?
    ensures Split(s, sep) == [s[..IndexOf(s, sep).value]] + Split(s[IndexOf(s, sep).value + |sep|..], sep)
  {
  }

  /** The first piece and the remaining pieces of a split at the first occurrence. */
  lemma SplitHeadTail(s: string, sep: string)
    requires |sep| > 0 && IndexOf(s, sep).Some?
    ensures var i := IndexOf(s, sep).value;
            Split(s, sep)[0] == s[..i] && Split(s, sep)[1..] == Split(s[i + |sep|..], sep)
  {
    var i := IndexOf(s, sep).value;
    SplitFirstCut(s, sep);
    ConsParts(s[..i], Split(s[i + |sep|..], sep));
  }

  /**
    `split` cuts at the leftmost occurrence: one piece, the string itself, exactly when
    the separator does not occur; otherwise the first piece is the text before the
    first occurrence `IndexOf` finds, and the rest are the split of what follows it.
  */
  lemma SplitCutsAtLeftmost(s: string, sep: string)
    requires |sep| > 0
    ensures |Split(s, sep)| == 1 <==> !Contains(s, sep)
    ensures !Contains(s, sep) ==> Split(s, sep) == [s]
    ensures Contains(s, sep) ==>
              var i := IndexOf(s, sep).value;
              Split(s, sep)[0] == s[..i] && Split(s, sep)[1..] == Split(s[i + |sep|..], sep)
  {
    if Contains(s, sep) {
      SplitHeadTail(s, sep);
    }
  }

  /** `parts[0] + sep + parts[1] + ... + sep + parts[n-1]`, accumulated left to right. */
  function Join(parts: seq<string>, sep: string): string
    requires |parts| >= 1
  {
    if |parts| == 1 then parts[0]
    else Join(parts[..|parts| - 1], sep) + sep + parts[|parts| - 1]
  }

  lemma {:induction false} JoinCons(a: string, rest: seq<string>, sep: string)
    requires |rest| >= 1
    ensures Join([a] + rest, sep) == a + sep + Join(rest, sep)
    decreases |rest|
  {
    var all := [a] + rest;
    if |rest| > 1 {
      assert all[..|all| - 1] == [a] + rest[..|rest| - 1];
      JoinCons(a, rest[..|rest| - 1], sep);
    } else {
      assert all[..|all| - 1] == [a];
    }
  }

  /** A string is the text before an occurrence, the token, and the text after it. */
  lemma SplitAtOccurrence(s: string, tok: string, i: nat)
    requires OccursAt(s, tok, i)
    ensures s == s[..i] + tok + s[i + |tok|..]
  {
    assert s == s[..i] + s[i..i + |tok|] + s[i + |tok|..];
  }

  /** Joining the pieces of a split with the separator gives back the original string. */
  lemma {:induction false} JoinSplit(s: string, sep: string)
    requires |sep| > 0
    ensures Join(Split(s, sep), sep) == s
    decreases |s|
  {
    match IndexOf(s, sep)
    case None =>
    case Some(i) =>
      var tail := s[i + |sep|..];
      JoinSplit(tail, sep);
      JoinCons(s[..i], Split(tail, sep), sep);
      SplitAtOccurrence(s, sep, i);
  }

  /** A string without the separator splits into itself alone. */
  lemma SplitWithoutSeparator(s: string, sep: string)
    requires |sep| > 0 && !Contains(s, sep)
    ensures Split(s, sep) == [s]
  {
  }

  /**
    A token cannot straddle a glue string it shares no character with: an occurrence
    in `a + glue + b` lies inside `a` or inside `b`.
  */
  lemma NoTokenAcrossGlue(a: string, glue: string, b: string, tok: string)
    requires |glue| > 0 && |tok| > 0
    requires forall i, j :: 0 <= i < |glue| && 0 <= j < |tok| ==> glue[i] != tok[j]
    requires !Contains(a, tok) && !Contains(b, tok)
    ensures !Contains(a + glue + b, tok)
  {
    var x := a + glue + b;
    forall k: nat ensures !OccursAt(x, tok, k) {
      if k + |tok| <= |x| {
        var w := x[k..k + |tok|];
        if k + |tok| <= |a| {
          assert w == a[k..k + |tok|];
          assert !OccursAt(a, tok, k);
        } else if k >= |a| + |glue| {
          var m := k - |a| - |glue|;
          assert w == b[m..m + |tok|];
          assert !OccursAt(b, tok, m);
        } else {
          var p := if k >= |a| then k else |a|;
          assert w[p - k] == glue[p - |a|];
          assert glue[p - |a|] != tok[p - k];
        }
      }
    }
  }

  /** Joining token-free pieces with such a glue string leaves no token behind. */
  lemma {:induction false} NoTokenInJoin(parts: seq<string>, glue: string, tok: string)
    requires |parts| >= 1 && |glue| > 0 && |tok| > 0
    requires forall i, j :: 0 <= i < |glue| && 0 <= j < |tok| ==> glue[i] != tok[j]
    requires forall k :: 0 <= k < |parts| ==> !Contains(parts[k], tok)
    ensures !Contains(Join(parts, glue), tok)
    decreases |parts|
  {
    if |parts| > 1 {
      var init := parts[..|parts| - 1];
      NoTokenInJoin(init, glue, tok);
      NoTokenAcrossGlue(Join(init, glue), glue, parts[|parts| - 1], tok);
    }
  }
}

=== FILE: swap_gate.dfy ===
/**
  The swap gate (`fireLoadImageLogic`) and the `data-si-maxsize` record: under the
  upsize-only policy an element whose largest served zone is recorded is swapped again
  only for a zone at least as large.
*/
module SwapGate {
  import opened Wrappers
  import opened JsStrings

  /**
    `fireLoadImageLogic(options, obj, thisZone)`: `maxSize` is the `data-si-maxsize`
    attribute (`None` when absent), read with `parseInt`. A comparison that involves NaN
    or an undefined zone is false.
  */
  function FireLoadImageLogic(upsizeOnly: bool, maxSize: Option<string>, zone: Option<int>): (r: bool)
    ensures !upsizeOnly || maxSize.None? ==> r
    ensures upsizeOnly && maxSize.Some? && zone.None? ==> !r
    ensures r && upsizeOnly && maxSize.Some? ==>
              ParseInt(maxSize.value).Some? && zone.value >= ParseInt(maxSize.value).value
  {
    if upsizeOnly then
      match maxSize
      case None => true
      case Some(text) =>
        match ParseInt(text)
        case None => false
        case Some(m) => zone.Some? && zone.value >= m
    else true
  }

  /**
    The attribute after `loadImage`'s last step: with upsize-only on, a defined zone is
    written as its text; `attr(name, undefined)` does nothing, so an undefined zone writes
    nothing.
  */
  function RecordMaxSize(upsizeOnly: bool, maxSize: Option<string>, zone: Option<int>): (r: Option<string>)
    ensures upsizeOnly && zone.Some? ==> r.Some? && ParseInt(r.value) == zone
    ensures !(upsizeOnly && zone.Some?) ==> r == maxSize
  {
    match zone
    case Some(z) =>
      if upsizeOnly then
        ParseIntOfIntToString(z);
        Some(IntToString(z))
      else maxSize
    case None => maxSize
  }

  /** The attribute after one resize event: recorded only when the gate let the swap through. */
  function RecordAfterPass(upsizeOnly: bool, maxSize: Option<string>, zone: Option<int>): (r: Option<string>)
    ensures !upsizeOnly ==> r == maxSize
    ensures r != maxSize ==> FireLoadImageLogic(upsizeOnly, maxSize, zone) && r.Some? && ParseInt(r.value) == zone
    ensures upsizeOnly && FireLoadImageLogic(upsizeOnly, maxSize, zone) && zone.Some? ==> RecordedSize(r) == zone
  {
    if FireLoadImageLogic(upsizeOnly, maxSize, zone) then RecordMaxSize(upsizeOnly, maxSize, zone)
    else maxSize
  }

  /** An attribute that is absent or holds a number, as every value the plugin writes does. */
  predicate NumericRecord(maxSize: Option<string>)
  {
    maxSize.None? || ParseInt(maxSize.value).Some?
  }

  /** The number a numeric record holds. */
  function RecordedSize(maxSize: Option<string>): Option<int>
  {
    match maxSize
    case None => None
    case Some(text) => ParseInt(text)
  }

  /**
    The largest zone served so far, given the previous record and a newly evaluated
    zone; an undefined zone adds nothing.
  */
  function Highest(maxSize: Option<int>, zone: Option<int>): (r: Option<int>)
    ensures r.None? <==> maxSize.None? && zone.None?
    ensures maxSize.Some? ==> r.value >= maxSize.value
    ensures zone.Some? ==> r.value >= zone.value
    ensures r == maxSize || r == zone
  {
    match (maxSize, zone)
    case (None, _) => zone
    case (_, None) => maxSize
    case (Some(m), Some(z)) => if z >= m then zone else maxSize
  }

  // ---------------------------------------------------------------------------------
  // Properties

  /**
    The gate in the terms of the upsize policy: always open without it or before the
    first record, and otherwise open exactly for a defined zone no smaller than the
    recorded number.
  */
  lemma GateCases(upsizeOnly: bool, maxSize: Option<string>, zone: Option<int>)
    ensures !upsizeOnly ==> FireLoadImageLogic(upsizeOnly, maxSize, zone)
    ensures maxSize.None? ==> FireLoadImageLogic(upsizeOnly, maxSize, zone)
    ensures upsizeOnly && maxSize.Some? ==>
              (FireLoadImageLogic(upsizeOnly, maxSize, zone) <==>
                 ParseInt(maxSize.value).Some? && zone.Some? && zone.value >= ParseInt(maxSize.value).value)
  {
  }

  /** A record that is not a number (set in the markup) keeps the gate shut for every zone. */
  lemma NonNumericRecordBlocks(maxSize: Option<string>, zone: Option<int>)
    requires !NumericRecord(maxSize)
    ensures !FireLoadImageLogic(true, maxSize, zone)
    ensures RecordAfterPass(true, maxSize, zone) == maxSize
  {
  }

  /**
    Under upsize-only, opening the gate and then recording the zone keeps a numeric
    record equal to the largest zone seen, so the record never decreases.
  */
  lemma GateKeepsHighest(maxSize: Option<string>, zone: Option<int>)
    requires NumericRecord(maxSize)
    ensures NumericRecord(RecordAfterPass(true, maxSize, zone))
    ensures RecordedSize(RecordAfterPass(true, maxSize, zone)) == Highest(RecordedSize(maxSize), zone)
  {
  }

  /** Without upsize-only the attribute is never written. */
  lemma NoRecordWithoutUpsizeOnly(maxSize: Option<string>, zone: Option<int>)
    ensures FireLoadImageLogic(false, maxSize, zone)
    ensures RecordAfterPass(false, maxSize, zone) == maxSize
  {
  }
}

=== FILE: url_builder.dfy ===
/**
  The options record and the URL that `loadImage` builds from it: cloudimage.io takes
  precedence over the custom URL, which takes precedence over placeholders; with no
  processor selected the URL stays the empty string.
*/
module UrlBuilder {
  import opened Wrappers
  import opened JsStrings
  import opened Zones
  import opened UrlTemplate

  /** The plugin's options after `$.extend` with the defaults (the callback is not modelled). */
  datatype Options = Options(
    breakpoints: seq<int>,
    upsizeOnly: bool,
    maintainAspect: bool,
    useCloudImageIO: bool,
    cloudImageIO: string,
    useCustomURL: bool,
    customURL: string,
    usePlaceholders: bool,
    protocol: string,
    logging: bool)

  /** `$.fn.smarterImages.options`. */
  const DefaultOptions: Options :=
    Options(DefaultBreakpoints, true, false, false, "", false, "", false, "http://", false)

  datatype Processor = CloudImage | CustomTemplate | Placeholder | NoProcessor

  /** The branch of the `if / else if` chain that builds the URL. */
  function SelectedProcessor(opts: Options): (p: Processor)
    ensures p == CloudImage <==> opts.useCloudImageIO
    ensures p == CustomTemplate <==> !opts.useCloudImageIO && opts.useCustomURL
    ensures p == Placeholder <==> !opts.useCloudImageIO && !opts.useCustomURL && opts.usePlaceholders
    ensures p == NoProcessor <==> !opts.useCloudImageIO && !opts.useCustomURL && !opts.usePlaceholders
  {
    if opts.useCloudImageIO then CloudImage
    else if opts.useCustomURL then CustomTemplate
    else if opts.usePlaceholders then Placeholder
    else NoProcessor
  }

  /**
    `Math.floor(zone / aspectRatio)` for a non-zero ratio: the real quotient rounded
    down, which Dafny's Euclidean division gives directly only for a positive divisor.
  */
  function CropHeight(zone: int, ratio: int): (h: int)
    requires ratio != 0
    ensures ratio > 0 ==> h * ratio <= zone < h * ratio + ratio
    ensures ratio < 0 ==> h * ratio + ratio < zone <= h * ratio
  {
    if ratio > 0 then zone / ratio else (0 - zone) / (0 - ratio)
  }

  /**
    The text of `Math.floor(zone / parseInt(data-si-aspect))`: a ratio whose integer part
    is 0 divides by zero, which JavaScript renders as an infinity or NaN, and an
    undefined zone or a NaN ratio gives NaN. Only a defined zone over a non-zero ratio
    yields a height that reads back as a number.
  */
  function HeightText(zone: Option<int>, ratio: Option<int>): (h: string)
    ensures zone.Some? && ratio.Some? && ratio.value != 0 ==>
              ParseInt(h) == Some(CropHeight(zone.value, ratio.value))
    ensures !(zone.Some? && ratio.Some? && ratio.value != 0) ==> ParseInt(h).None?
  {
    match (zone, ratio)
    case (Some(z), Some(a)) =>
      if a != 0 then
        ParseIntOfIntToString(CropHeight(z, a));
        IntToString(CropHeight(z, a))
      else if z > 0 then "Infinity"
      else if z < 0 then
        assert LeadingDigits("-Infinity"[1..]) == 0;
        "-Infinity"
      else "NaN"
    case _ => "NaN"
  }

  /**
    The shape of a URL `p + a + sep + b`: the text after `p` starts with `a`, the text
    after `p + a + sep` is `b`.
  */
  lemma UrlShape(p: string, a: string, sep: string, b: string)
    ensures p <= p + a + sep + b && (p + a + sep + b)[|p|..] == a + (sep + b)
    ensures p + a + sep <= p + a + sep + b && (p + a + sep + b)[|p + a + sep|..] == b
  {
    var u := p + a + sep + b;
    assert u == p + (a + (sep + b));
    assert u == (p + a + sep) + b;
  }

  /** The shape of a crop URL `p + w + "x" + h + "/" + src`, piece by piece. */
  lemma CropShape(p: string, w: string, h: string, src: string)
    ensures var u := p + w + "x" + h + "/" + src;
            p <= u && u[|p|..] == w + ("x" + (h + ("/" + src))) &&
            p + w + "x" <= u && u[|p + w + "x"|..] == h + ("/" + src) &&
            |src| <= |u| && u[|u| - |src|..] == src
  {
    var u := p + w + "x" + h + "/" + src;
    assert u == p + (w + ("x" + (h + ("/" + src))));
    assert u == (p + w + "x") + (h + ("/" + src));
    assert u == (p + w + "x" + h + "/") + src;
  }

  /** The source at the end of `u + src`. */
  lemma EndsWith(u: string, src: string)
    ensures |src| <= |u + src| && (u + src)[|u + src| - |src|..] == src
  {
  }

  /** The height text reads the same when more text that starts with no digit follows. */
  lemma HeightTextThen(zone: Option<int>, ratio: Option<int>, rest: string)
    requires |rest| == 0 || !IsDigit(rest[0])
    ensures ParseInt(HeightText(zone, ratio) + rest) == ParseInt(HeightText(zone, ratio))
  {
    var h := HeightText(zone, ratio);
    if zone.Some? && ratio.Some? && ratio.value != 0 {
      ParseIntOfIntToStringThen(CropHeight(zone.value, ratio.value), rest);
    } else if h == "-Infinity" {
      assert (h + rest)[0] == '-' && (h + rest)[1] == 'I';
    } else {
      assert (h + rest)[0] == h[0];
    }
  }

  /**
    The resize URL: after the service's prefix comes the zone, read back by `parseInt`,
    and the URL ends with the element's source.
  */
  function CloudImageResizeUrl(opts: Options, zone: Option<int>, dataSrc: Option<string>): (url: string)
    ensures var p := opts.protocol + opts.cloudImageIO + ".cloudimage.io/s/resize/";
            p <= url && ParseInt(url[|p|..]) == zone
    ensures var src := OrUndefined(dataSrc);
            |src| <= |url| && url[|url| - |src|..] == src
  {
    var p := opts.protocol + opts.cloudImageIO + ".cloudimage.io/s/resize/";
    var src := OrUndefined(dataSrc);
    ZoneTextThen(zone, "/" + src);
    UrlShape(p, ZoneText(zone), "/", src);
    EndsWith(p + ZoneText(zone) + "/", src);
    p + ZoneText(zone) + "/" + src
  }

  /**
    The crop URL: after the service's prefix comes the zone, then "x" and the height,
    each read back by `parseInt`, and the URL ends with the element's source.
  */
  function CloudImageCropUrl(opts: Options, zone: Option<int>, ratio: Option<int>, dataSrc: Option<string>): (url: string)
    ensures var p := opts.protocol + opts.cloudImageIO + ".cloudimage.io/s/crop/";
            p <= url && ParseInt(url[|p|..]) == zone
    ensures var q := opts.protocol + opts.cloudImageIO + ".cloudimage.io/s/crop/" + ZoneText(zone) + "x";
            q <= url && ParseInt(url[|q|..]) == ParseInt(HeightText(zone, ratio))
    ensures var src := OrUndefined(dataSrc);
            |src| <= |url| && url[|url| - |src|..] == src
  {
    var p := opts.protocol + opts.cloudImageIO + ".cloudimage.io/s/crop/";
    var src := OrUndefined(dataSrc);
    var h := HeightText(zone, ratio);
    ZoneTextThen(zone, "x" + (h + ("/" + src)));
    HeightTextThen(zone, ratio, "/" + src);
    CropShape(p, ZoneText(zone), h, src);
    p + ZoneText(zone) + "x" + h + "/" + src
  }

  /**
    The placeholder URL names the zone twice, as width and as height: both read back
    by `parseInt` as the zone.
  */
  function PlaceholderUrl(opts: Options, zone: Option<int>): (url: string)
    ensures var p := opts.protocol + "placehold.it/";
            p <= url && ParseInt(url[|p|..]) == zone
    ensures var q := opts.protocol + "placehold.it/" + ZoneText(zone) + "x";
            q <= url && ParseInt(url[|q|..]) == zone
  {
    var p := opts.protocol + "placehold.it/";
    ZoneTextThen(zone, "x" + ZoneText(zone));
    UrlShape(p, ZoneText(zone), "x", ZoneText(zone));
    p + ZoneText(zone) + "x" + ZoneText(zone)
  }

  /**
    The `srcString` of `loadImage` for an element with the given `data-si-src` and the
    integer part of its cached aspect ratio.
  */
  function BuildUrl(opts: Options, dataSrc: Option<string>, ratio: Option<int>, zone: Option<int>): (url: string)
    ensures SelectedProcessor(opts) == CloudImage && !opts.maintainAspect ==>
              url == CloudImageResizeUrl(opts, zone, dataSrc)
    ensures SelectedProcessor(opts) == CloudImage && opts.maintainAspect ==>
              url == CloudImageCropUrl(opts, zone, ratio, dataSrc)
    ensures SelectedProcessor(opts) == CustomTemplate ==> url == CustomUrl(opts.customURL, zone, dataSrc)
    ensures SelectedProcessor(opts) == Placeholder ==> url == PlaceholderUrl(opts, zone)
    ensures SelectedProcessor(opts) == NoProcessor ==> url == ""
  {
    if opts.useCloudImageIO then
      if opts.maintainAspect then CloudImageCropUrl(opts, zone, ratio, dataSrc)
      else CloudImageResizeUrl(opts, zone, dataSrc)
    else if opts.useCustomURL then CustomUrl(opts.customURL, zone, dataSrc)
    else if opts.usePlaceholders then PlaceholderUrl(opts, zone)
    else ""
  }

  // ---------------------------------------------------------------------------------
  // Properties

  /**
    With exactly one processor flag set, as the options are meant to be configured, the
    precedence of the chain does not matter: the flag that is set decides.
  */
  lemma SingleFlagSelectsItsProcessor(opts: Options)
    requires (if opts.useCloudImageIO then 1 else 0) + (if opts.useCustomURL then 1 else 0)
               + (if opts.usePlaceholders then 1 else 0) == 1
    ensures opts.useCloudImageIO <==> SelectedProcessor(opts) == CloudImage
    ensures opts.useCustomURL <==> SelectedProcessor(opts) == CustomTemplate
    ensures opts.usePlaceholders <==> SelectedProcessor(opts) == Placeholder
  {
  }

  /**
    The crop URL of a defined zone asks for the zone's width and the largest height
    whose product with the ratio does not exceed it.
  */
  lemma CropUrlHeight(opts: Options, z: int, a: nat, dataSrc: Option<string>)
    requires a >= 1
    ensures exists h: int :: h * a <= z < h * a + a &&
              CloudImageCropUrl(opts, Some(z), Some(a), dataSrc)
                == opts.protocol + opts.cloudImageIO + ".cloudimage.io/s/crop/" + IntToString(z)
                   + "x" + IntToString(h) + "/" + OrUndefined(dataSrc)
  {
    var h := CropHeight(z, a);
    assert HeightText(Some(z), Some(a)) == IntToString(h);
  }

  // ---------------------------------------------------------------------------------
  // The worked URLs

  lemma ExampleZoneTexts()
    ensures ZoneText(Some(768)) == "768"
    ensures ZoneText(Some(480)) == "480"
    ensures ZoneText(Some(360)) == "360"
  {
    assert NatToString(7) == "7" && NatToString(76) == "76";
    assert NatToString(4) == "4" && NatToString(48) == "48";
    assert NatToString(3) == "3" && NatToString(36) == "36";
  }

  // The worked URLs below, spelled out piece by piece; each identity is a lemma of its
  // own so that the solver compares one pair of literals at a time.

  lemma ResizeUrlText()
    ensures "https://" + "demo" + ".cloudimage.io/s/resize/" + "768" + "/" + "cat.jpg"
              == "https://demo.cloudimage.io/s/resize/768/cat.jpg"
  {
  }

  lemma CropUrlText()
    ensures "https://" + "demo" + ".cloudimage.io/s/crop/" + "480" + "x" + "480" + "/" + "cat.jpg"
              == "https://demo.cloudimage.io/s/crop/480x480/cat.jpg"
  {
  }

  lemma PortraitUrlText()
    ensures "https://" + "demo" + ".cloudimage.io/s/crop/" + "480" + "x" + "Infinity" + "/" + "cat.jpg"
              == "https://demo.cloudimage.io/s/crop/480xInfinity/cat.jpg"
  {
    assert "480" + "x" + "Infinity" == "480xInfinity";
    assert "https://" + "demo" + ".cloudimage.io/s/crop/" == "https://demo.cloudimage.io/s/crop/";
  }

  lemma PlaceholderUrlText()
    ensures "http://" + "placehold.it/" + "360" + "x" + "360" == "http://placehold.it/360x360"
  {
  }

  lemma ResizeExample(opts: Options)
    requires opts.useCloudImageIO && !opts.maintainAspect
    requires opts.cloudImageIO == "demo" && opts.protocol == "https://"
    ensures BuildUrl(opts, Some("cat.jpg"), None, Some(768))
              == "https://demo.cloudimage.io/s/resize/768/cat.jpg"
  {
    ExampleZoneTexts();
    assert BuildUrl(opts, Some("cat.jpg"), None, Some(768))
      == "https://" + "demo" + ".cloudimage.io/s/resize/" + "768" + "/" + "cat.jpg";
    ResizeUrlText();
  }

  /**
    A cached ratio of "1.5" is read with `parseInt` as 1, so the crop for zone 480 is
    480 high rather than 320.
  */
  lemma CropExample(opts: Options)
    requires opts.useCloudImageIO && opts.maintainAspect
    requires opts.cloudImageIO == "demo" && opts.protocol == "https://"
    ensures ParseInt("1.5") == Some(1)
    ensures BuildUrl(opts, Some("cat.jpg"), Some(1), Some(480))
              == "https://demo.cloudimage.io/s/crop/480x480/cat.jpg"
  {
    ParseIntOfRatio();
    ExampleZoneTexts();
    assert HeightText(Some(480), Some(1)) == "480";
    assert BuildUrl(opts, Some("cat.jpg"), Some(1), Some(480))
      == "https://" + "demo" + ".cloudimage.io/s/crop/" + "480" + "x" + "480" + "/" + "cat.jpg";
    CropUrlText();
  }

  /** A portrait element (ratio below 1) divides by zero: its crop height reads "Infinity". */
  lemma PortraitCropExample(opts: Options)
    requires opts.useCloudImageIO && opts.maintainAspect
    requires opts.cloudImageIO == "demo" && opts.protocol == "https://"
    ensures ParseInt("0.75") == Some(0)
    ensures BuildUrl(opts, Some("cat.jpg"), Some(0), Some(480))
              == "https://demo.cloudimage.io/s/crop/480xInfinity/cat.jpg"
  {
    ParseIntOfRatio();
    ExampleZoneTexts();
    assert BuildUrl(opts, Some("cat.jpg"), Some(0), Some(480))
      == "https://" + "demo" + ".cloudimage.io/s/crop/" + "480" + "x" + "Infinity" + "/" + "cat.jpg";
    PortraitUrlText();
  }

  lemma PlaceholderExample(opts: Options)
    requires !opts.useCloudImageIO && !opts.useCustomURL && opts.usePlaceholders
    requires opts.protocol == "http://"
    ensures BuildUrl(opts, None, None, Some(360)) == "http://placehold.it/360x360"
  {
    ExampleZoneTexts();
    assert BuildUrl(opts, None, None, Some(360)) == PlaceholderUrl(opts, Some(360));
    assert PlaceholderUrl(opts, Some(360)) == "http://" + "placehold.it/" + "360" + "x" + "360";
    PlaceholderUrlText();
  }

  /** The defaults select no processor, so the URL is the empty string. */
  lemma DefaultOptionsBuildEmptyUrl(dataSrc: Option<string>, ratio: Option<int>, zone: Option<int>)
    ensures SelectedProcessor(DefaultOptions) == NoProcessor
    ensures BuildUrl(DefaultOptions, dataSrc, ratio, zone) == ""
  {
  }
}

=== FILE: wrappers.dfy ===
/** An optional value: `None` stands for JavaScript's `undefined` (an absent attribute, an unset zone). */
module Wrappers {

  datatype Option<+T> = None | Some(value: T)
}

=== FILE: zones.dfy ===
/**
  Zone resolution (`evalWidths`): the viewport width selects one entry of the
  `breakpoints` option. A width in the low range gives the first entry, a width at or
  above the last entry gives the last one, and otherwise a scan of the middle entries
  keeps the last entry whose interval holds the width. The result may be undefined.
*/
module Zones {
  import opened Wrappers
  import opened JsStrings

  /** The default `breakpoints` option. */
  const DefaultBreakpoints: seq<int> := [360, 480, 768, 1050, 1300, 1600]

  predicate StrictlyIncreasing(b: seq<int>)
  {
    forall i, j :: 0 <= i < j < |b| ==> b[i] < b[j]
  }

  /** The test the middle loop applies at index `i`: `b[i] <= w < b[i+1]`. */
  predicate InZone(b: seq<int>, w: int, i: nat)
    requires i + 1 < |b|
  {
    b[i] <= w < b[i + 1]
  }

  /**
    The index the middle loop has recorded after visiting indices 1 .. k-1:
    the last one whose interval holds the width, if any.
  */
  function LastMidMatch(b: seq<int>, w: int, k: nat): (r: Option<nat>)
    requires k < |b|
    ensures r.Some? ==> 1 <= r.value < k && InZone(b, w, r.value)
    ensures r.Some? ==> forall j: nat :: r.value < j < k ==> !InZone(b, w, j)
    ensures r.None? ==> forall j: nat :: 1 <= j < k ==> !InZone(b, w, j)
  {
    if k <= 1 then None
    else if InZone(b, w, k - 1) then Some(k - 1)
    else LastMidMatch(b, w, k - 1)
  }

  /** The value the middle loop leaves in `breakpointFlag` after visiting indices 1 .. k-1. */
  function MidFlag(b: seq<int>, w: int, k: nat): (r: Option<int>)
    requires k < |b|
  {
    match LastMidMatch(b, w, k)
    case Some(i) => Some(b[i])
    case None => None
  }

  /**
    The zone `evalWidths` returns for breakpoints `b` and width `w`. A list shorter than
    two entries makes `b[1]` (and, when empty, `b[length-1]`) undefined, and a JavaScript
    comparison with `undefined` is false.
  */
  function ResolveZone(b: seq<int>, w: int): (r: Option<int>)
    ensures r.Some? ==> r.value in b
  {
    if |b| >= 2 && 0 < w < b[1] then Some(b[0])
    else if |b| >= 1 && w >= b[|b| - 1] then Some(b[|b| - 1])
    else if |b| >= 2 then MidFlag(b, w, |b| - 1)
    else None
  }

  /** The text the zone contributes to a concatenation; an undefined zone reads "undefined". */
  function ZoneText(zone: Option<int>): (s: string)
    ensures zone.Some? ==> ParseInt(s) == zone
    ensures zone.None? ==> ParseInt(s).None?
  {
    match zone
    case Some(z) =>
      ParseIntOfIntToString(z);
      IntToString(z)
    case None =>
      assert LeadingDigits("undefined") == 0;
      "undefined"
  }

  /**
    The zone's text still reads back as the zone when more text follows it that does not
    start with a digit, as it does inside a URL.
  */
  lemma ZoneTextThen(zone: Option<int>, rest: string)
    requires |rest| == 0 || !IsDigit(rest[0])
    ensures ParseInt(ZoneText(zone) + rest) == zone
  {
    match zone
    case Some(z) => ParseIntOfIntToStringThen(z, rest);
    case None => assert (ZoneText(zone) + rest)[0] == 'u';
  }

  /** `evalWidths(options, viewportWidth)`, with its mid-range loop. */
  method EvalWidths(breakpoints: seq<int>, viewportWidth: int) returns (breakpointFlag: Option<int>)
    ensures breakpointFlag == ResolveZone(breakpoints, viewportWidth)
  {
    var n := |breakpoints|;
    breakpointFlag := None;
    if n >= 2 && viewportWidth > 0 && viewportWidth < breakpoints[1] {
      breakpointFlag := Some(breakpoints[0]);
    } else if n >= 1 && viewportWidth >= breakpoints[n - 1] {
      breakpointFlag := Some(breakpoints[n - 1]);
    } else if n >= 2 {
      var i := 1;
      while i < n - 1
        invariant 1 <= i <= n - 1
        invariant breakpointFlag == MidFlag(breakpoints, viewportWidth, i)
      {
        if viewportWidth >= breakpoints[i] && viewportWidth < breakpoints[i + 1] {
          breakpointFlag := Some(breakpoints[i]);
        }
        i := i + 1;
      }
    }
  }

  // ---------------------------------------------------------------------------------
  // Properties

  /**
    Outside the middle range, for any list: a positive width below the second entry
    gives the first entry; otherwise a width at or above the last entry gives the last.
  */
  lemma ZoneOutsideMidRange(b: seq<int>, w: int)
    ensures |b| >= 2 && 0 < w < b[1] ==> ResolveZone(b, w) == Some(b[0])
    ensures (|b| >= 1 && !(|b| >= 2 && 0 < w < b[1]) && w >= b[|b| - 1]) ==>
              ResolveZone(b, w) == Some(b[|b| - 1])
  {
  }

  /**
    With overlapping intervals (a list that is not increasing) the last matching
    index of the middle range wins.
  */
  lemma LastMatchWins(b: seq<int>, w: int, i: nat)
    requires |b| >= 2 && !(0 < w < b[1]) && w < b[|b| - 1]
    requires 1 <= i < |b| - 1 && InZone(b, w, i)
    requires forall j: nat :: i < j < |b| - 1 ==> !InZone(b, w, j)
    ensures ResolveZone(b, w) == Some(b[i])
  {
  }

  /** In a strictly increasing list at most one interval of the middle range holds a width. */
  lemma IncreasingHasOneInterval(b: seq<int>, w: int, i: nat, j: nat)
    requires StrictlyIncreasing(b) && i + 1 < |b| && j + 1 < |b|
    requires InZone(b, w, i) && InZone(b, w, j)
    ensures i == j
  {
  }

  /**
    For a strictly increasing list the zone of a width at or above the second entry is
    the greatest entry that does not exceed it.
  */
  lemma ZoneIsGreatestNotExceeding(b: seq<int>, w: int, i: nat)
    requires StrictlyIncreasing(b) && 1 <= i < |b|
    requires b[i] <= w && (i == |b| - 1 || w < b[i + 1])
    ensures ResolveZone(b, w) == Some(b[i])
  {
    assert b[1] <= b[i];
    if i < |b| - 1 {
      assert b[i + 1] <= b[|b| - 1];
      assert InZone(b, w, i);
      var r := LastMidMatch(b, w, |b| - 1);
      if r.Some? {
        IncreasingHasOneInterval(b, w, r.value, i);
        assert MidFlag(b, w, |b| - 1) == Some(b[i]);
      }
    }
  }

  /** Some interval of indices 1 .. k-1 holds a width between `b[1]` and `b[k]`. */
  lemma {:induction false} MidIntervalExists(b: seq<int>, w: int, k: nat) returns (i: nat)
    requires 1 <= k < |b| && b[1] <= w < b[k]
    ensures 1 <= i < k && InZone(b, w, i)
    decreases k
  {
    if w >= b[k - 1] {
      i := k - 1;
    } else {
      i := MidIntervalExists(b, w, k - 1);
    }
  }

  /**
    For a strictly increasing list of at least two entries, `evalWidths` is undefined
    exactly for the widths that are not positive and lie below the second entry.
  */
  lemma {:induction false} ZoneUndefinedIff(b: seq<int>, w: int)
    requires StrictlyIncreasing(b) && |b| >= 2
    ensures ResolveZone(b, w).None? <==> w <= 0 && w < b[1]
  {
    var n := |b|;
    if w >= b[n - 1] {
      assert ResolveZone(b, w).Some?;
    } else if w >= b[1] {
      var i := MidIntervalExists(b, w, n - 1);
      ZoneIsGreatestNotExceeding(b, w, i);
    } else if w <= 0 {
      assert b[1] <= b[n - 1];
      assert forall j: nat :: 1 <= j < n - 1 ==> b[1] <= b[j];
    }
  }

  lemma DefaultBreakpointsIncrease()
    ensures StrictlyIncreasing(DefaultBreakpoints) && |DefaultBreakpoints| == 6
  {
  }

  /** The zones of the two widths of the upsize scenario over `[360, 480, 768]`. */
  lemma ScenarioZones()
    ensures ResolveZone([360, 480, 768], 500) == Some(480)
    ensures ResolveZone([360, 480, 768], 400) == Some(360)
  {
    ZoneIsGreatestNotExceeding([360, 480, 768], 500, 1);
  }

  /** Overlapping intervals: the later interval [200, 400) wins over [100, 300). */
  lemma OverlapExample()
    ensures ResolveZone([0, 100, 300, 200, 400], 250) == Some(200)
  {
    LastMatchWins([0, 100, 300, 200, 400], 250, 3);
  }
}
